=== FILE: README.md ===
# Portfolio site logic, modelled in Dafny

The site is a Next.js portfolio. Most of it is markup, animation and a
three.js scene. Under that are three pieces of logic, and this project models
them and proves what each promises.

- **`sendEmail`** is the server action behind the contact form.
  - It rejects missing or empty fields, then e-mail addresses that fail the
    pattern `^[^\s@]+@[^\s@]+\.[^\s@]+$`.
  - Otherwise it builds a `mailto:` link. The subject and body header fields
    are encoded with `encodeURIComponent`.
- **The page's state rules**:
  - the testimonial carousel index;
  - the section the scroll handler marks active;
  - the mobile menu flag and the mobile layout flag;
  - the contact form's submit cycle and its green or red status box.
- **The `Scene3D` gating state machine**:
  - four flags, driven by a device check, a 5000 ms timeout and the canvas's
    `onCreated` and `onError` callbacks;
  - the rule that picks the fallback, the loading overlay or the canvas.

ECMAScript strings are sequences of UTF-16 code units (module `Utf16`).

`encodeURIComponent` follows section 19.2.6 of ECMA-262 (module
`UriComponent`):
- an unpaired surrogate raises a URIError;
- unreserved code units (ASCII letters, digits and `-_.!~*'()`) are copied as they are;
- every other code point is written as the percent-escaped bytes of its UTF-8 form.

`decodeURIComponent` is modelled beside it as its inverse.

`sendEmail` is modelled over three optional strings, so its URIError branch
is kept. That branch is reached only when `get` yields a string with a lone
surrogate. No FormData does that: every value a FormData holds is a
USVString, in which each unpaired surrogate has become U+FFFD
(`Utf16.ToWellFormed`). So the contact form, which fills its FormData with
`append`, never reaches the branch.

A reader for section 2 of RFC 6068 (module `Mailto`) reads a link back into
its address and header fields. It serves as the independent reference for
the link's shape.

Modules and files:
- `options.dfy`: Option and Result.
- `utf16.dfy`: code units, well-formedness, UTF-16 encoding of code points.
- `uri_component.dfy`: percent-encoding and decoding, UTF-8.
- `mailto.dfy`: the RFC 6068 reader.
- `contact_action.dfy`: `sendEmail`.
- `scene3d.dfy`: `Scene3D`.
- `portfolio.dfy`: carousel, page navigation, contact form.

Event handlers that change component state are methods of classes whose
fields are that state (`TestimonialCarousel`, `Page`, `ContactForm`,
`Scene3D`). The server action and the index arithmetic are functions.

## Model

| member | source | states |
|---|---|---|
| ContactAction.SendEmail | app/actions/sendEmail.ts:3-46 | a link comes back exactly on success, and then with the sent text; every failure answers one of the three fixed failure texts |
| ContactAction.MissingFieldRejected | app/actions/sendEmail.ts:9-14 | through `IsFilled` (the `!field` test): a missing or empty name, e-mail or message gives failure with "Please fill in all fields." and no link, whatever the e-mail looks like |
| ContactAction.BlankNameIsFilled | app/actions/sendEmail.ts:9-14 | a non-empty name of nothing but white space passes the presence check: with a filled message and a matching address the answer is never "Please fill in all fields.", and the call succeeds exactly when address and message can be encoded |
| ContactAction.EmailPatternMeaning | app/actions/sendEmail.ts:17-18 | `MatchesEmailPattern`, the regular expression, holds exactly when the address has no white space or line terminator, exactly one "@" that is not first, and a "." after the "@" with at least one unit between them and at least one after it |
| ContactAction.PatternIgnoresConversion | app/actions/sendEmail.ts:17-18 | a lone surrogate and U+FFFD are both `[^\s@]`, so an address matches exactly when its USVString conversion does |
| ContactAction.MalformedEmailRejected | app/actions/sendEmail.ts:18-23 | three filled fields and an address that fails the pattern give failure with "Please enter a valid email address." and no link |
| ContactAction.SuccessfulLink | app/actions/sendEmail.ts:27-37 | on success the message is the fixed sent text and the link (`MailtoLink`) is "mailto:qubitofficial25@gmail.com?subject=" + enc(subject template) + "&body=" + enc(body template) |
| ContactAction.SubjectWellFormed | app/actions/sendEmail.ts:27 | the subject template (`Subject`) has an unpaired surrogate exactly when the name has one |
| ContactAction.BodyWellFormed | app/actions/sendEmail.ts:28 | the body template (`Body`) has an unpaired surrogate exactly when one of the three fields has one |
| ContactAction.SendEmailSucceedsIff | app/actions/sendEmail.ts:25-45 | the call succeeds exactly when all fields are filled, the address matches and no field holds an unpaired surrogate; a link is present exactly on success; a validated call that fails answers "Failed to send message. Please try again." |
| ContactAction.NoDelimiters | app/actions/sendEmail.ts:37 | encoded text holds no raw "&", "=", "?" or "#" |
| ContactAction.MailtoLinkFields | app/actions/sendEmail.ts:37 | for any encoded subject and body, the link reads back under RFC 6068 as the fixed address and exactly the two fields subject and body, holding those values |
| ContactAction.SentLinkRecoversMessage | app/actions/sendEmail.ts:27-37 | end to end: on success the link parses to the address and the two fields, and decoding their values gives back the subject and body texts exactly |
| UriComponent.EncodeFailsIffIllFormed | app/actions/sendEmail.ts:37 | encodeURIComponent (`EncodeUriComponent`) throws exactly when its argument holds an unpaired surrogate |
| UriComponent.EncodeIsPercentEncoded | app/actions/sendEmail.ts:37 | a successful encoding consists only of unreserved characters and "%HH" triples with upper-case hex digits |
| UriComponent.PercentEncodedAlphabet | app/actions/sendEmail.ts:37 | every code unit of percent-encoded text is an unreserved character, "%" or an upper-case hex digit |
| UriComponent.DecodeEncode | app/actions/sendEmail.ts:37 | decodeURIComponent inverts a successful encodeURIComponent exactly |
| Mailto.ParseTwoFields | app/actions/sendEmail.ts:37 | "mailto:" + an address without "?" + "?" + two name=value fields without "&" or "=" reads back as that address and those two fields |
| Scene.GateNeedsALowReading | app/components/Scene3D.tsx:54-63 | `ShouldGate` (isLowEndDevice or hasLimitedMemory) is false, so the scene stays on, when the core count and the memory reading are each absent, 0 or at least 4 |
| Scene.LowReadingGates | app/components/Scene3D.tsx:54-63 | `ShouldGate` is true, so the scene is turned off, for one to three cores or for a memory reading strictly between 0 and 4 |
| Scene.CanvasConfigFor | app/components/Scene3D.tsx:99-110 | the canvas props for a layout; the pixel-ratio range [0.5, 1 or 2] and the performance range [0.2, 1] are positive and non-empty |
| Scene.MobileCanvasIsLighter | app/components/Scene3D.tsx:99-110 | mobile canvas: camera z 8 instead of 5, fov 50 instead of 75, pixel ratio capped at 1 instead of 2, no antialiasing, low-power GPU; the other settings are the same |
| Scene.Render | app/components/Scene3D.tsx:84-110 | the fallback exactly when the scene is off or has failed; otherwise the canvas for the layout, with the overlay exactly while loading |
| Scene.Scene3D.OverlayMeansPendingTimeout | app/components/Scene3D.tsx:70-97 | between events, the overlay is up exactly while loading, a timeout that will act is then pending, and the fallback never shows during a load |
| Scene.Scene3D.Mount | app/components/Scene3D.tsx:45-81 | after the first render and the effect: isMobile is the width rule, the scene is on and loading exactly when the device is not gated, no error, and a 5000 ms timeout is pending |
| Scene.Scene3D.CheckDevice | app/components/Scene3D.tsx:51-64 | isMobile becomes width < 768; a gated device turns the scene off and stops loading; nothing else changes |
| Scene.Scene3D.RunEffect | app/components/Scene3D.tsx:50-81 | a device check, then a timeout 5000 ms ahead that keeps the isLoading of the render that armed it, re-run if the check changed isLoading |
| Scene.Scene3D.Resize | app/components/Scene3D.tsx:67 | a resize moves only the width and isMobile; the invariant and the one-way flags are kept |
| Scene.Scene3D.TimeoutFires | app/components/Scene3D.tsx:70-81 | a due timeout sets hasError and clears isLoading exactly when loading was in progress, showing the fallback; otherwise nothing visible changes and the re-armed timeout does nothing |
| Scene.Scene3D.CanvasCreated | app/components/Scene3D.tsx:111-113 | onCreated clears isLoading, leaves hasError alone and shows the canvas without the overlay |
| Scene.Scene3D.CanvasError | app/components/Scene3D.tsx:114-117 | onError sets hasError, clears isLoading and shows the fallback |
| Portfolio.NextIndex | app/page.tsx:545-547 | the next index is in range, and for an in-range index it is the one after it, with the last wrapping to 0 |
| Portfolio.PrevIndex | app/page.tsx:549-551 | the previous index is in range, and for an in-range index it is the one before it, with 0 wrapping to the last |
| Portfolio.PrevUndoesNext | app/page.tsx:545-551 | next then prev gives back the index |
| Portfolio.NextUndoesPrev | app/page.tsx:545-551 | prev then next gives back the index |
| Portfolio.AdvanceIsRotation | app/page.tsx:545-547 | k clicks on next move an in-range index to (i + k) mod n |
| Portfolio.FullCycleIsIdentity | app/page.tsx:545-547 | n clicks on next give back the index |
| Portfolio.TestimonialCarousel.constructor | app/page.tsx:543 | the carousel starts at index 0 |
| Portfolio.TestimonialCarousel.Next | app/page.tsx:545-547 | the index moves to the next one and stays below the number of testimonials (3) |
| Portfolio.TestimonialCarousel.Prev | app/page.tsx:549-551 | the index moves to the previous one and stays below the number of testimonials |
| Portfolio.TestimonialCarousel.Select | app/page.tsx:604-607 | clicking a dot shows that testimonial |
| Portfolio.LastCovering | app/page.tsx:69-77 | finds the last section whose element spans the position, or reports that none does |
| Portfolio.ActiveAfterScroll | app/page.tsx:65-78 | the section left active is the one active before or one of the listed sections |
| Portfolio.LastCoveringExtend | app/page.tsx:69-77 | visiting one more section moves the choice to it exactly when its element spans the position |
| Portfolio.Page.constructor | app/page.tsx:40-42 | the page starts on "home" with the menu closed and the desktop layout |
| Portfolio.Page.CheckMobile | app/page.tsx:50-51 | isMobile becomes exactly innerWidth < 768; nothing else changes |
| Portfolio.Page.ScrollToSection | app/page.tsx:59-63 | the menu ends up closed whatever it was; the active section and layout do not change |
| Portfolio.Page.ToggleMenu | app/page.tsx:113 | the menu flag flips; nothing else changes |
| Portfolio.Page.HandleScroll | app/page.tsx:65-78 | at position scrollY + 100, the active section becomes the last section in list order whose element spans it; it is unchanged when none does, and it stays one of the page's sections |
| Portfolio.SuccessIsGreen | app/page.tsx:708 | the sent message contains "successfully", so its box is green |
| Portfolio.MissingFieldsIsRed | app/page.tsx:708 | the missing-fields message does not contain "successfully", so its box is red |
| Portfolio.InvalidEmailIsRed | app/page.tsx:708 | the invalid-address message gets a red box |
| Portfolio.SendFailedIsRed | app/page.tsx:708 | the send-failed message gets a red box |
| Portfolio.SubmitErrorIsRed | app/page.tsx:653 | the message shown when the action throws gets a red box |
| Portfolio.StatusMatchesOutcome | app/page.tsx:703-715 | through `StatusBox` (shown for a non-empty message, green exactly when it contains "successfully"): whatever sendEmail answers, the status box shows, and it is green exactly when the call succeeded |
| Utf16.ToWellFormed | app/page.tsx:633-636 | FormData.append's USVString conversion: the result is well formed and as long as the input, a code unit is kept exactly when it is not half of a broken pair, every unpaired surrogate becomes U+FFFD, and a well-formed string comes back unchanged |
| Portfolio.SubmittedFormOutcome | app/page.tsx:633-639 | for the converted fields, sendEmail succeeds exactly when the typed fields are non-empty and the typed e-mail matches the pattern, and never answers "Failed to send message. Please try again." |
| Portfolio.ContactForm.constructor | app/page.tsx:620-626 | the form starts empty, not busy, with no status box |
| Portfolio.ContactForm.StartSubmit | app/page.tsx:630-631 | the form becomes busy and the status box disappears; the fields stay |
| Portfolio.ContactForm.FinishSubmit | app/page.tsx:638-656 | afterwards the form is not busy. On success the fields are cleared and the link is launched. On failure the fields stay. A throw shows "An error occurred. Please try again." |
| Portfolio.ContactForm.HandleSubmit | app/page.tsx:628-657 | sendEmail runs on the USVString conversions of the fields. After a submit the form is not busy and the box shows; it never shows the send-failed text. It is green exactly when the call did not throw, all fields were non-empty and the e-mail matched the pattern, and exactly then the fields are cleared and the mailto link is launched |

## Left out

- Markup, styling and animation are not modelled. This covers the JSX, the Tailwind classes, framer-motion, the scroll parallax and the three.js scene content (`SceneContent`, `CodeBlock`). They hold no state rules.
- app/components/ErrorBoundary.tsx is not part of this model. Its one rule is a sticky error flag that swaps in a fallback, and `Scene3D` already captures that rule.
- Browser effects become inputs and outputs:
  - `window.innerWidth`, `window.scrollY` and the navigator readings are parameters;
  - `document.getElementById` with `offsetTop`/`offsetHeight` is a map from section id to box;
  - `window.open` is the link `HandleSubmit` returns;
  - `scrollIntoView` and the smooth scroll are left to the browser.
- Listener registration and removal are not modelled. Each listener call is a method call.
- React's batching of state updates is not modelled. An event runs to completion before the next one.
- Unmounting `Scene3D` is not modelled. Its cleanup is modelled only where a change of `isLoading` re-runs the effect.
- Positions, widths and times are integers. Fractional scroll offsets and window sizes are not modelled. Time is an abstract millisecond count.
- `deviceMemory` is an exact rational and `hardwareConcurrency` a natural number. NaN and other floating-point effects are not modelled.
- The `FormData` transport and the `await` are modelled only in part:
  - `sendEmail` is a function of three optional strings;
  - the one effect of `FormData.append` on the values, their conversion to USVStrings, is modelled (`Utf16.ToWellFormed`);
  - a throw from the call itself is the `transportFails` parameter;
  - the renders between `StartSubmit` and `FinishSubmit` are not modelled.
- `console.error` in the catch block is logging only and is not modelled.
- The fields' `onChange` handlers are not modelled. They copy the input's value into the form state after the browser's value sanitisation: the name input drops line breaks, the e-mail input drops line breaks and leading and trailing ASCII white space, and the message textarea turns each CR LF or lone CR into LF. `HandleSubmit` is stated over the form state, whatever reached it. The browser's constraint validation before submit is not modelled either: the `required` attribute on the three fields, and the `type="email"` check on the e-mail input. So `HandleSubmit` accepts any fields.
- Static content arrays are not modelled (projects, services, skills, social links, testimonial texts). Only the number of testimonials (3) and the order of the section list matter.
- Scene.Scene3D.Resize: the model assumes the navigator readings have not changed since mount. The gate was already applied to those readings at mount, so a resize changes only `isMobile` and never re-runs the effect.
- Mailto.Parse reads only what section 2 of RFC 6068 needs for these links: the address, and fields split on "&" and "=". It does not decode the address or field names.
- The body encodes "\n" as "%0A". Section 5 of RFC 6068 asks for "%0D%0A"; the model follows the code.
- Portfolio.NextIndex and Portfolio.PrevIndex take natural numbers. For those, JavaScript's truncating `%` agrees with Dafny's. A negative index never arises, since the index starts at 0 and stays in range.

=== FILE: contact_action.dfy ===
/**
 * The contact-form server action `sendEmail`: a presence check on the three
 * fields, an e-mail pattern check, and a mailto link whose subject and body
 * header fields are encoded with encodeURIComponent.
 */
module ContactAction {
  import opened Options
  import opened Utf16
  import opened UriComponent
  import Mailto

  /**
   * What the action returns; `mailtoLink` is only present on success. The
   * messages are fixed ASCII texts, kept as plain strings.
   */
  datatype SendEmailResult = SendEmailResult(success: bool, message: string, mailtoLink: Option<JsString>)

  const MISSING_FIELDS_MESSAGE: string := "Please fill in all fields."
  const INVALID_EMAIL_MESSAGE: string := "Please enter a valid email address."
  const SENT_MESSAGE: string := "Message sent successfully! Thank you for reaching out."
  const SEND_FAILED_MESSAGE: string := "Failed to send message. Please try again."

  const RECIPIENT: string := "qubitofficial25@gmail.com"

  const AT: CodeUnit := '@' as int
  const DOT: CodeUnit := '.' as int

  /**
   * A form entry counts as filled when `!field` is false: it is present and
   * is not the empty string. Blank text counts as filled.
   */
  predicate IsFilled(field: Option<JsString>) {
    field.Some? && field.value != []
  }

  /**
   * The code units `\s` matches in an ECMAScript regular expression without
   * the u flag: WhiteSpace (tab, vertical tab, form feed, ZWNBSP and every
   * space separator) and LineTerminator.
   */
  predicate IsWhiteSpace(u: CodeUnit) {
    || u == 0x09 || u == 0x0B || u == 0x0C || u == 0xFEFF
    || u == 0x20 || u == 0xA0 || u == 0x1680 || (0x2000 <= u <= 0x200A) || u == 0x202F || u == 0x205F || u == 0x3000
    || u == 0x0A || u == 0x0D || u == 0x2028 || u == 0x2029
  }

  /** The class [^\s@]. */
  predicate IsAddressUnit(u: CodeUnit) {
    !IsWhiteSpace(u) && u != AT
  }

  predicate AllAddressUnits(s: JsString) {
    forall i | 0 <= i < |s| :: IsAddressUnit(s[i])
  }

  /**
   * /^[^\s@]+@[^\s@]+\.[^\s@]+$/.test(e): e is three non-empty runs of
   * [^\s@] joined by "@" and ".", for some choice of the "." among the
   * candidates.
   */
  predicate MatchesEmailPattern(e: JsString) {
    exists at, dot | 0 < at < |e| && at + 1 < dot < |e| - 1 ::
      && e[at] == AT && e[dot] == DOT
      && AllAddressUnits(e[..at]) && AllAddressUnits(e[at + 1..dot]) && AllAddressUnits(e[dot + 1..])
  }

  /** The pattern in plain terms. */
  predicate HasEmailShape(e: JsString) {
    && (forall i | 0 <= i < |e| :: !IsWhiteSpace(e[i]))
    && exists at | 0 < at < |e| ::
         && e[at] == AT
         && (forall i | 0 <= i < |e| && i != at :: e[i] != AT)
         && (exists dot | at + 1 < dot < |e| - 1 :: e[dot] == DOT)
  }

  function Subject(name: JsString): JsString {
    FromString("Portfolio Contact: Message from ") + name
  }

  function Body(name: JsString, email: JsString, message: JsString): JsString {
    FromString("Name: ") + name + FromString("\nEmail: ") + email + FromString("\n\nMessage:\n") + message
  }

  /** mailto:qubitofficial25@gmail.com?subject=<subject>&body=<body> */
  function MailtoLink(encodedSubject: JsString, encodedBody: JsString): JsString {
    FromString("mailto:") + FromString(RECIPIENT) + [Mailto.QUESTION]
    + (FromString("subject") + [Mailto.EQUALS] + encodedSubject
       + [Mailto.AMPERSAND] + (FromString("body") + [Mailto.EQUALS] + encodedBody))
  }

  /**
   * sendEmail: fields are read as optional strings. The presence check comes
   * first, the e-mail pattern second; encodeURIComponent throwing a URIError
   * is the one failure of the try block. A link comes back exactly on
   * success, with the sent text; every failure answers one of the three
   * fixed failure texts.
   */
  function SendEmail(name: Option<JsString>, email: Option<JsString>, message: Option<JsString>): (r: SendEmailResult)
    ensures r.mailtoLink.Some? <==> r.success
    ensures r.success ==> r.message == SENT_MESSAGE
    ensures !r.success ==> r.message in {MISSING_FIELDS_MESSAGE, INVALID_EMAIL_MESSAGE, SEND_FAILED_MESSAGE}
  {
    if !IsFilled(name) || !IsFilled(email) || !IsFilled(message) then
      SendEmailResult(false, MISSING_FIELDS_MESSAGE, None)
    else if !MatchesEmailPattern(email.value) then
      SendEmailResult(false, INVALID_EMAIL_MESSAGE, None)
    else
      var subject := Subject(name.value);
      var body := Body(name.value, email.value, message.value);
      match (EncodeUriComponent(subject), EncodeUriComponent(body))
      case (Ok(encodedSubject), Ok(encodedBody)) =>
        SendEmailResult(true, SENT_MESSAGE, Some(MailtoLink(encodedSubject, encodedBody)))
      case _ =>
        SendEmailResult(false, SEND_FAILED_MESSAGE, None)
  }

  // ---------------------------------------------------------------------------
  // Validation

  /** A missing or empty field is reported before the e-mail is looked at. */
  lemma MissingFieldRejected(name: Option<JsString>, email: Option<JsString>, message: Option<JsString>)
    requires !IsFilled(name) || !IsFilled(email) || !IsFilled(message)
    ensures SendEmail(name, email, message) == SendEmailResult(false, MISSING_FIELDS_MESSAGE, None)
  {
  }

  /**
   * Only the empty string is unfilled: a name of nothing but blanks passes
   * the presence check, so with a filled message and a matching address
   * the call never answers "Please fill in all fields.", and it succeeds
   * exactly when the address and message can be encoded.
   */
  lemma BlankNameIsFilled(name: JsString, email: JsString, message: JsString)
    requires name != [] && forall i | 0 <= i < |name| :: IsWhiteSpace(name[i])
    requires message != [] && MatchesEmailPattern(email)
    ensures var r := SendEmail(Some(name), Some(email), Some(message));
      && r.message != MISSING_FIELDS_MESSAGE
      && (r.success <==> WellFormed(email) && WellFormed(message))
  {
    assert WellFormed(name) by {
      forall i | 0 <= i < |name| ensures PairedAt(name, i) {
        assert IsWhiteSpace(name[i]);
      }
    }
    SendEmailSucceedsIff(Some(name), Some(email), Some(message));
  }

  /** Three filled fields and an e-mail that fails the pattern give the invalid-address answer. */
  lemma MalformedEmailRejected(name: JsString, email: JsString, message: JsString)
    requires name != [] && email != [] && message != []
    requires !MatchesEmailPattern(email)
    ensures SendEmail(Some(name), Some(email), Some(message))
            == SendEmailResult(false, INVALID_EMAIL_MESSAGE, None)
  {
  }

  /**
   * The pattern holds exactly when e has no white space, exactly one "@",
   * something before it, and a "." after it that is neither the first nor
   * the last code unit of the domain.
   */
  lemma EmailPatternMeaning(e: JsString)
    ensures MatchesEmailPattern(e) <==> HasEmailShape(e)
  {
    if MatchesEmailPattern(e) {
      PatternGivesShape(e);
    }
    if HasEmailShape(e) {
      ShapeGivesPattern(e);
    }
  }

  lemma PatternGivesShape(e: JsString)
    requires MatchesEmailPattern(e)
    ensures HasEmailShape(e)
  {
    var at, dot :| 0 < at < |e| && at + 1 < dot < |e| - 1
      && e[at] == AT && e[dot] == DOT
      && AllAddressUnits(e[..at]) && AllAddressUnits(e[at + 1..dot]) && AllAddressUnits(e[dot + 1..]);
    forall i | 0 <= i < |e| && i != at ensures IsAddressUnit(e[i]) {
      if i < at {
        assert e[..at][i] == e[i];
      } else if i < dot {
        assert e[at + 1..dot][i - at - 1] == e[i];
      } else if i > dot {
        assert e[dot + 1..][i - dot - 1] == e[i];
      }
    }
    assert forall i | 0 <= i < |e| && i != at :: e[i] != AT;
    assert e[dot] == DOT;
  }

  lemma ShapeGivesPattern(e: JsString)
    requires HasEmailShape(e)
    ensures MatchesEmailPattern(e)
  {
    var at :| 0 < at < |e| && e[at] == AT
      && (forall i | 0 <= i < |e| && i != at :: e[i] != AT)
      && (exists dot | at + 1 < dot < |e| - 1 :: e[dot] == DOT);
    var dot :| at + 1 < dot < |e| - 1 && e[dot] == DOT;
    assert AllAddressUnits(e[..at]) by {
      forall i | 0 <= i < at ensures IsAddressUnit(e[..at][i]) {
        assert e[..at][i] == e[i];
      }
    }
    var domain, top := e[at + 1..dot], e[dot + 1..];
    assert AllAddressUnits(domain) by {
      forall i | 0 <= i < |domain| ensures IsAddressUnit(domain[i]) {
        assert domain[i] == e[at + 1 + i];
      }
    }
    assert AllAddressUnits(top) by {
      forall i | 0 <= i < |top| ensures IsAddressUnit(top[i]) {
        assert top[i] == e[dot + 1 + i];
      }
    }
  }

  /** x and y look the same to the pattern, code unit by code unit. */
  predicate AgreeOnPattern(x: JsString, y: JsString) {
    && |x| == |y|
    && forall i | 0 <= i < |x| ::
         IsAddressUnit(x[i]) == IsAddressUnit(y[i]) && (x[i] == AT <==> y[i] == AT) && (x[i] == DOT <==> y[i] == DOT)
  }

  lemma SameAddressUnits(x: JsString, y: JsString)
    requires |x| == |y| && forall i | 0 <= i < |x| :: IsAddressUnit(x[i]) == IsAddressUnit(y[i])
    ensures AllAddressUnits(x) == AllAddressUnits(y)
  {
  }

  lemma PatternCarriesOver(x: JsString, y: JsString)
    requires AgreeOnPattern(x, y) && MatchesEmailPattern(x)
    ensures MatchesEmailPattern(y)
  {
    var at, dot :| 0 < at < |x| && at + 1 < dot < |x| - 1
      && x[at] == AT && x[dot] == DOT
      && AllAddressUnits(x[..at]) && AllAddressUnits(x[at + 1..dot]) && AllAddressUnits(x[dot + 1..]);
    SameAddressUnits(x[..at], y[..at]);
    SameAddressUnits(x[at + 1..dot], y[at + 1..dot]);
    SameAddressUnits(x[dot + 1..], y[dot + 1..]);
    assert y[at] == AT && y[dot] == DOT;
  }

  /**
   * A lone surrogate and U+FFFD both fall in [^\s@], so the pattern cannot
   * tell a string from its USVString conversion.
   */
  lemma PatternIgnoresConversion(e: JsString)
    ensures MatchesEmailPattern(ToWellFormed(e)) <==> MatchesEmailPattern(e)
  {
    var r := ToWellFormed(e);
    forall i | 0 <= i < |e|
      ensures IsAddressUnit(r[i]) == IsAddressUnit(e[i]) && (r[i] == AT <==> e[i] == AT) && (r[i] == DOT <==> e[i] == DOT)
    {
      if r[i] != e[i] {
        assert !PairedAt(e, i);
      }
    }
    assert AgreeOnPattern(e, r) && AgreeOnPattern(r, e);
    if MatchesEmailPattern(e) {
      PatternCarriesOver(e, r);
    }
    if MatchesEmailPattern(r) {
      PatternCarriesOver(r, e);
    }
  }

  // ---------------------------------------------------------------------------
  // Outcome

  /** The link that succeeds: fixed message, subject and body built from the templates, then encoded. */
  lemma SuccessfulLink(name: JsString, email: JsString, message: JsString)
    requires SendEmail(Some(name), Some(email), Some(message)).success
    ensures var r := SendEmail(Some(name), Some(email), Some(message));
      && r.message == SENT_MESSAGE
      && EncodeUriComponent(Subject(name)).Ok?
      && EncodeUriComponent(Body(name, email, message)).Ok?
      && r.mailtoLink == Some(MailtoLink(EncodeUriComponent(Subject(name)).value,
                                         EncodeUriComponent(Body(name, email, message)).value))
  {
  }

  /** The subject template adds no surrogate of its own: it can be encoded exactly when the name can. */
  lemma SubjectWellFormed(name: JsString)
    ensures WellFormed(Subject(name)) <==> WellFormed(name)
  {
    WellFormedAfterLiteral("Portfolio Contact: Message from ", name);
  }

  /** Likewise the body template: it can be encoded exactly when all three fields can. */
  lemma BodyWellFormed(name: JsString, email: JsString, message: JsString)
    ensures WellFormed(Body(name, email, message)) <==> WellFormed(name) && WellFormed(email) && WellFormed(message)
  {
    WellFormedAfterLiteral("Name: ", name);
    WellFormedAroundLiteral(FromString("Name: ") + name, "\nEmail: ", email);
    WellFormedAroundLiteral(FromString("Name: ") + name + FromString("\nEmail: ") + email, "\n\nMessage:\n", message);
  }

  /**
   * Past validation the call fails only through encodeURIComponent, and that
   * happens exactly when one of the three fields holds an unpaired surrogate.
   */
  lemma SendEmailSucceedsIff(name: Option<JsString>, email: Option<JsString>, message: Option<JsString>)
    ensures var r := SendEmail(name, email, message);
      && (r.success <==>
            && IsFilled(name) && IsFilled(email) && IsFilled(message)
            && MatchesEmailPattern(email.value)
            && WellFormed(name.value) && WellFormed(email.value) && WellFormed(message.value))
      && (r.mailtoLink.Some? <==> r.success)
      && ((IsFilled(name) && IsFilled(email) && IsFilled(message) && MatchesEmailPattern(email.value) && !r.success)
          ==> r.message == SEND_FAILED_MESSAGE)
  {
    if IsFilled(name) && IsFilled(email) && IsFilled(message) && MatchesEmailPattern(email.value) {
      var n, e, m := name.value, email.value, message.value;
      SubjectWellFormed(n);
      BodyWellFormed(n, e, m);
      EncodeFailsIffIllFormed(Subject(n));
      EncodeFailsIffIllFormed(Body(n, e, m));
    }
  }

  // ---------------------------------------------------------------------------
  // The link

  /**
   * Whatever the user typed, the link reads back, under the mailto grammar,
   * as the fixed address and exactly two header fields, subject and body,
   * whose values are the encoded texts.
   */
  lemma MailtoLinkFields(encodedSubject: JsString, encodedBody: JsString)
    requires IsPercentEncoded(encodedSubject) && IsPercentEncoded(encodedBody)
    ensures Mailto.Parse(MailtoLink(encodedSubject, encodedBody))
            == Some(Mailto.MailtoUri(FromString(RECIPIENT),
                                     [Mailto.HeaderField(FromString("subject"), encodedSubject),
                                      Mailto.HeaderField(FromString("body"), encodedBody)]))
  {
    NoDelimiters(encodedSubject);
    NoDelimiters(encodedBody);
    AddressHasNoQuestionMark();
    FieldNamesHaveNoDelimiters();
    Mailto.ParseTwoFields(FromString(RECIPIENT), FromString("subject"), encodedSubject, FromString("body"), encodedBody);
  }

  /** The address holds no "?", so it ends where the header fields begin. */
  lemma AddressHasNoQuestionMark()
    ensures Mailto.QUESTION !in FromString(RECIPIENT)
  {
    FromStringExcludes(RECIPIENT, '?');
  }

  /** The two field names hold neither "&" nor "=". */
  lemma FieldNamesHaveNoDelimiters()
    ensures Mailto.AMPERSAND !in FromString("subject") && Mailto.EQUALS !in FromString("subject")
    ensures Mailto.AMPERSAND !in FromString("body") && Mailto.EQUALS !in FromString("body")
  {
    FromStringExcludes("subject", '&');
    FromStringExcludes("subject", '=');
    FromStringExcludes("body", '&');
    FromStringExcludes("body", '=');
  }

  /** Encoded text holds no "&", "=", "?" or "#", so user input cannot add or cut a header field. */
  lemma NoDelimiters(t: JsString)
    requires IsPercentEncoded(t)
    ensures Mailto.AMPERSAND !in t && Mailto.EQUALS !in t && Mailto.QUESTION !in t && ('#' as int) !in t
  {
    PercentEncodedAlphabet(t);
  }

  /**
   * End to end: on success the link has the two header fields subject and
   * body, and decoding their values gives back the subject and body texts
   * exactly.
   */
  lemma SentLinkRecoversMessage(name: JsString, email: JsString, message: JsString)
    requires SendEmail(Some(name), Some(email), Some(message)).success
    ensures var link := SendEmail(Some(name), Some(email), Some(message)).mailtoLink.value;
      && Mailto.Parse(link).Some?
      && Mailto.Parse(link).value.to == FromString(RECIPIENT)
      && |Mailto.Parse(link).value.headers| == 2
      && Mailto.Parse(link).value.headers[0].name == FromString("subject")
      && Mailto.Parse(link).value.headers[1].name == FromString("body")
      && DecodeUriComponent(Mailto.Parse(link).value.headers[0].value) == Ok(Subject(name))
      && DecodeUriComponent(Mailto.Parse(link).value.headers[1].value) == Ok(Body(name, email, message))
  {
    SendEmailSucceedsIff(Some(name), Some(email), Some(message));
    var subject, body := Subject(name), Body(name, email, message);
    SubjectWellFormed(name);
    BodyWellFormed(name, email, message);
    DecodeEncode(subject);
    DecodeEncode(body);
    EncodeIsPercentEncoded(subject);
    EncodeIsPercentEncoded(body);
    MailtoLinkFields(EncodeUriComponent(subject).value, EncodeUriComponent(body).value);
  }
}

=== FILE: mailto.dfy ===
/**
 * Reading a mailto URI back (section 2 of RFC 6068): "mailto:", the address
 * part up to the first "?", then header fields separated by "&", each of the
 * form name "=" value, where neither part may hold a raw "=".
 */
module Mailto {
  import opened Options
  import opened Utf16

  const QUESTION: CodeUnit := '?' as int
  const AMPERSAND: CodeUnit := '&' as int
  const EQUALS: CodeUnit := '=' as int

  datatype HeaderField = HeaderField(name: JsString, value: JsString)

  datatype MailtoUri = MailtoUri(to: JsString, headers: seq<HeaderField>)

  /** The position of the first c in s, if there is one. */
  function IndexOf(s: JsString, c: CodeUnit): (r: Option<nat>)
    ensures r.None? <==> c !in s
    ensures r.Some? ==> r.value < |s| && s[r.value] == c && c !in s[..r.value]
  {
    if s == [] then None
    else if s[0] == c then Some(0)
    else
      match IndexOf(s[1..], c)
      case None => None
      case Some(i) =>
        assert s[..i + 1] == [s[0]] + s[1..][..i];
        Some(i + 1)
  }

  /** The pieces of s between the occurrences of c. */
  function Split(s: JsString, c: CodeUnit): (r: seq<JsString>)
    decreases |s|
  {
    match IndexOf(s, c)
    case None => [s]
    case Some(i) => [s[..i]] + Split(s[i + 1..], c)
  }

  /** hfield = hfname "=" hfvalue */
  function ParseField(f: JsString): Option<HeaderField> {
    var parts := Split(f, EQUALS);
    if |parts| == 2 then Some(HeaderField(parts[0], parts[1])) else None
  }

  function ParseFields(fs: seq<JsString>): Option<seq<HeaderField>> {
    if fs == [] then Some([])
    else
      match (ParseField(fs[0]), ParseFields(fs[1..]))
      case (Some(h), Some(hs)) => Some([h] + hs)
      case _ => None
  }

  /** mailtoURI = "mailto:" [ to ] [ hfields ] */
  function Parse(uri: JsString): Option<MailtoUri> {
    var scheme := FromString("mailto:");
    if |uri| < |scheme| || uri[..|scheme|] != scheme then None
    else
      var rest := uri[|scheme|..];
      match IndexOf(rest, QUESTION)
      case None => Some(MailtoUri(rest, []))
      case Some(i) =>
        match ParseFields(Split(rest[i + 1..], AMPERSAND))
        case None => None
        case Some(hs) => Some(MailtoUri(rest[..i], hs))
  }

  lemma IndexOfFirst(a: JsString, c: CodeUnit, b: JsString)
    requires c !in a
    ensures IndexOf(a + [c] + b, c) == Some(|a|)
  {
    var s := a + [c] + b;
    assert s[|a|] == c;
    assert s[..|a|] == a;
  }

  lemma SplitWithout(s: JsString, c: CodeUnit)
    requires c !in s
    ensures Split(s, c) == [s]
  {
  }

  lemma SplitFirst(a: JsString, c: CodeUnit, b: JsString)
    requires c !in a
    ensures Split(a + [c] + b, c) == [a] + Split(b, c)
  {
    var s := a + [c] + b;
    IndexOfFirst(a, c, b);
    assert s[..|a|] == a && s[|a| + 1..] == b;
  }

  /** After "mailto:" and an address without "?", the rest is read as header fields. */
  lemma ParseAfterAddress(to: JsString, query: JsString)
    requires QUESTION !in to
    ensures Parse(FromString("mailto:") + to + [QUESTION] + query)
            == match ParseFields(Split(query, AMPERSAND))
               case None => None
               case Some(hs) => Some(MailtoUri(to, hs))
  {
    var scheme := FromString("mailto:");
    var uri := scheme + to + [QUESTION] + query;
    var rest := uri[|scheme|..];
    assert uri[..|scheme|] == scheme && rest == to + [QUESTION] + query;
    IndexOfFirst(to, QUESTION, query);
    assert rest[..|to|] == to && rest[|to| + 1..] == query;
  }

  /** A field with one "=" and no other reads back as its name and value. */
  lemma ParseFieldOf(name: JsString, value: JsString)
    requires EQUALS !in name && EQUALS !in value
    ensures ParseField(name + [EQUALS] + value) == Some(HeaderField(name, value))
  {
    SplitFirst(name, EQUALS, value);
    SplitWithout(value, EQUALS);
  }

  lemma ParseFieldsPair(f1: JsString, f2: JsString, h1: HeaderField, h2: HeaderField)
    requires ParseField(f1) == Some(h1) && ParseField(f2) == Some(h2)
    ensures ParseFields([f1, f2]) == Some([h1, h2])
  {
    var none: seq<JsString> := [];
    var last: seq<JsString> := [f2];
    assert ParseFields(none) == Some([]);
    assert last[1..] == none && last[0] == f2;
    assert [h2] + [] == [h2];
    assert ParseFields(last) == Some([h2]);
    assert [f1, f2][1..] == last && [f1, f2][0] == f1;
    assert [h1] + [h2] == [h1, h2];
  }

  /** Two fields joined by "&" read back as those two fields. */
  lemma ParseTwoFieldQuery(name1: JsString, value1: JsString, name2: JsString, value2: JsString)
    requires AMPERSAND !in name1 && AMPERSAND !in value1 && AMPERSAND !in name2 && AMPERSAND !in value2
    requires EQUALS !in name1 && EQUALS !in value1 && EQUALS !in name2 && EQUALS !in value2
    ensures ParseFields(Split(name1 + [EQUALS] + value1 + [AMPERSAND] + (name2 + [EQUALS] + value2), AMPERSAND))
            == Some([HeaderField(name1, value1), HeaderField(name2, value2)])
  {
    var field1, field2 := name1 + [EQUALS] + value1, name2 + [EQUALS] + value2;
    assert AMPERSAND !in field1 && AMPERSAND !in field2;
    SplitFirst(field1, AMPERSAND, field2);
    SplitWithout(field2, AMPERSAND);
    assert Split(field1 + [AMPERSAND] + field2, AMPERSAND) == [field1, field2];
    ParseFieldOf(name1, value1);
    ParseFieldOf(name2, value2);
    ParseFieldsPair(field1, field2, HeaderField(name1, value1), HeaderField(name2, value2));
  }

  /**
   * A URI written as "mailto:", an address without "?", then two header
   * fields whose names and values hold no "&" and no "=", reads back as
   * that address and those two fields.
   */
  lemma ParseTwoFields(to: JsString, name1: JsString, value1: JsString, name2: JsString, value2: JsString)
    requires QUESTION !in to
    requires AMPERSAND !in name1 && AMPERSAND !in value1 && AMPERSAND !in name2 && AMPERSAND !in value2
    requires EQUALS !in name1 && EQUALS !in value1 && EQUALS !in name2 && EQUALS !in value2
    ensures Parse(FromString("mailto:") + to + [QUESTION] + (name1 + [EQUALS] + value1 + [AMPERSAND] + (name2 + [EQUALS] + value2)))
            == Some(MailtoUri(to, [HeaderField(name1, value1), HeaderField(name2, value2)]))
  {
    ParseAfterAddress(to, name1 + [EQUALS] + value1 + [AMPERSAND] + (name2 + [EQUALS] + value2));
    ParseTwoFieldQuery(name1, value1, name2, value2);
  }
}

=== FILE: options.dfy ===
/** Option and Result, the shapes used for absent values and thrown errors. */
module Options {

  datatype Option<+T> = None | Some(value: T)

  datatype Result<+T, +E> = Ok(value: T) | Err(error: E)
}

=== FILE: portfolio.dfy ===
/**
 * The state rules of the portfolio page: the testimonial carousel, the
 * navigation state of the page (active section, mobile menu, mobile
 * layout), and the contact form's submit cycle with its status box.
 */
module Portfolio {
  import opened Options
  import opened Utf16
  import ContactAction

  // ---------------------------------------------------------------------------
  // Testimonial carousel

  /** The number of entries in the testimonials list. */
  const TESTIMONIAL_COUNT: nat := 3

  /** (prev + 1) % n */
  function NextIndex(i: nat, n: nat): (r: nat)
    requires n > 0
    ensures r < n
    ensures i < n ==> r == if i == n - 1 then 0 else i + 1
  {
    (i + 1) % n
  }

  /** (prev - 1 + n) % n */
  function PrevIndex(i: nat, n: nat): (r: nat)
    requires n > 0
    ensures r < n
    ensures i < n ==> r == if i == 0 then n - 1 else i - 1
  {
    (i - 1 + n) % n
  }

  /** Going back undoes going forward. */
  lemma PrevUndoesNext(i: nat, n: nat)
    requires i < n
    ensures PrevIndex(NextIndex(i, n), n) == i
  {
  }

  /** Going forward undoes going back. */
  lemma NextUndoesPrev(i: nat, n: nat)
    requires i < n
    ensures NextIndex(PrevIndex(i, n), n) == i
  {
  }

  /** The index after k clicks on the next button. */
  function Advance(i: nat, k: nat, n: nat): (r: nat)
    requires n > 0
    ensures r < n || (k == 0 && r == i)
  {
    if k == 0 then i else NextIndex(Advance(i, k - 1, n), n)
  }

  /** k clicks on next move an in-range index k places round the circle. */
  lemma {:induction false} AdvanceIsRotation(i: nat, k: nat, n: nat)
    requires i < n
    ensures Advance(i, k, n) == (i + k) % n
  {
    if k > 0 {
      AdvanceIsRotation(i, k - 1, n);
      ModuloStep(i + k - 1, n);
    }
  }

  /** (a % n + 1) % n == (a + 1) % n */
  lemma ModuloStep(a: nat, n: nat)
    requires n > 0
    ensures (a % n + 1) % n == (a + 1) % n
  {
    var q, j := a / n, a % n;
    assert a == n * q + j;
    if j + 1 < n {
      ModuloUnique(a + 1, n, q, j + 1);
      ModuloUnique(j + 1, n, 0, j + 1);
    } else {
      ModuloUnique(a + 1, n, q + 1, 0);
      ModuloUnique(j + 1, n, 1, 0);
    }
  }

  /** The remainder is the r of any a == n * q + r with 0 <= r < n. */
  lemma ModuloUnique(a: int, n: int, q: int, r: int)
    requires n > 0 && a == n * q + r && 0 <= r < n
    ensures a % n == r
  {
    var q', r' := a / n, a % n;
    assert a == n * q' + r';
    if q' < q {
      MultiplyStep(n, q', q);
      assert false;
    } else if q < q' {
      MultiplyStep(n, q, q');
      assert false;
    }
  }

  lemma MultiplyStep(n: int, x: int, y: int)
    requires n > 0 && x < y
    ensures n * x + n <= n * y
  {
    assert n * y - n * (x + 1) == n * (y - x - 1);
    assert n * (x + 1) == n * x + n;
  }

  /** n clicks on next bring every index back to itself. */
  lemma FullCycleIsIdentity(i: nat, n: nat)
    requires i < n
    ensures Advance(i, n, n) == i
  {
    AdvanceIsRotation(i, n, n);
    ModuloUnique(i + n, n, 1, i);
  }

  /** The carousel's one piece of state. */
  class TestimonialCarousel {
    var currentIndex: nat

    predicate Valid()
      reads this
    {
      currentIndex < TESTIMONIAL_COUNT
    }

    constructor()
      ensures Valid() && currentIndex == 0
    {
      currentIndex := 0;
    }

    /** The right-hand arrow. */
    method Next()
      requires Valid()
      modifies this
      ensures Valid()
      ensures currentIndex == NextIndex(old(currentIndex), TESTIMONIAL_COUNT)
    {
      currentIndex := (currentIndex + 1) % TESTIMONIAL_COUNT;
    }

    /** The left-hand arrow. */
    method Prev()
      requires Valid()
      modifies this
      ensures Valid()
      ensures currentIndex == PrevIndex(old(currentIndex), TESTIMONIAL_COUNT)
    {
      currentIndex := (currentIndex - 1 + TESTIMONIAL_COUNT) % TESTIMONIAL_COUNT;
    }

    /** A dot: there is one per testimonial, and clicking it shows that one. */
    method Select(index: nat)
      requires Valid() && index < TESTIMONIAL_COUNT
      modifies this
      ensures Valid() && currentIndex == index
    {
      currentIndex := index;
    }
  }

  // ---------------------------------------------------------------------------
  // Page navigation

  /** The page's sections, in the order the scroll handler visits them. */
  const SECTIONS: seq<string> := ["home", "projects", "about", "services", "testimonials", "contact"]

  /** How far below the top of the window the scroll handler looks. */
  const SCROLL_OFFSET: int := 100

  /** The layout of a section's element: offsetTop and offsetHeight, in pixels. */
  datatype Box = Box(offsetTop: int, offsetHeight: int)

  predicate Covers(b: Box, pos: int) {
    b.offsetTop <= pos < b.offsetTop + b.offsetHeight
  }

  /** Section j has an element in the document, and that element spans pos. */
  predicate HitAt(sections: seq<string>, dom: map<string, Box>, pos: int, j: int)
    requires 0 <= j < |sections|
  {
    sections[j] in dom && Covers(dom[sections[j]], pos)
  }

  /** The last section whose element spans pos, if any does. */
  function LastCovering(sections: seq<string>, dom: map<string, Box>, pos: int): (r: Option<nat>)
    ensures r.Some? ==> r.value < |sections| && HitAt(sections, dom, pos, r.value)
    ensures r.Some? ==> forall j | r.value < j < |sections| :: !HitAt(sections, dom, pos, j)
    ensures r.None? ==> forall j | 0 <= j < |sections| :: !HitAt(sections, dom, pos, j)
  {
    if sections == [] then None
    else
      var last := |sections| - 1;
      if HitAt(sections, dom, pos, last) then Some(last)
      else
        var r := LastCovering(sections[..last], dom, pos);
        assert forall j | 0 <= j < last :: HitAt(sections[..last], dom, pos, j) == HitAt(sections, dom, pos, j);
        r
  }

  /** The section the scroll handler leaves active, starting from `current`. */
  function ActiveAfterScroll(current: string, sections: seq<string>, dom: map<string, Box>, pos: int): (r: string)
    ensures r == current || r in sections
  {
    match LastCovering(sections, dom, pos)
    case None => current
    case Some(k) => sections[k]
  }

  /**
   * Looking at one more section either moves the choice to it, if its
   * element spans the position, or keeps the choice made so far.
   */
  lemma LastCoveringExtend(sections: seq<string>, dom: map<string, Box>, pos: int, i: nat)
    requires i < |sections|
    ensures LastCovering(sections[..i + 1], dom, pos)
            == if HitAt(sections, dom, pos, i) then Some(i) else LastCovering(sections[..i], dom, pos)
  {
    assert sections[..i + 1][..i] == sections[..i];
    assert HitAt(sections[..i + 1], dom, pos, i) == HitAt(sections, dom, pos, i);
  }

  /** The width below which the page uses its mobile layout. */
  const MOBILE_BREAKPOINT: int := 768

  predicate IsMobileWidth(innerWidth: int) {
    innerWidth < MOBILE_BREAKPOINT
  }

  /** The navigation state of the page. */
  class Page {
    var activeSection: string
    var isMenuOpen: bool
    var isMobile: bool

    /** The active section is always one of the page's sections. */
    predicate Valid()
      reads this
    {
      activeSection in SECTIONS
    }

    constructor()
      ensures Valid()
      ensures activeSection == "home" && !isMenuOpen && !isMobile
    {
      activeSection := "home";
      isMenuOpen := false;
      isMobile := false;
    }

    /** checkMobile, run on mount and on every resize. */
    method CheckMobile(innerWidth: int)
      modifies this
      ensures isMobile == IsMobileWidth(innerWidth)
      ensures activeSection == old(activeSection) && isMenuOpen == old(isMenuOpen)
    {
      isMobile := IsMobileWidth(innerWidth);
    }

    /**
     * scrollToSection: the smooth scroll is left to the browser; the menu
     * ends up closed whatever it was, and the active section waits for the
     * scroll events.
     */
    method ScrollToSection(sectionId: string)
      modifies this
      ensures !isMenuOpen
      ensures activeSection == old(activeSection) && isMobile == old(isMobile)
    {
      isMenuOpen := false;
    }

    /** The mobile menu button. */
    method ToggleMenu()
      modifies this
      ensures isMenuOpen == !old(isMenuOpen)
      ensures activeSection == old(activeSection) && isMobile == old(isMobile)
    {
      isMenuOpen := !isMenuOpen;
    }

    /**
     * handleScroll: every section whose element spans scrollY + 100
     * overwrites the active section, in list order, so the last one wins;
     * sections without an element are skipped, and with no match the
     * active section stays.
     */
    method HandleScroll(scrollY: int, dom: map<string, Box>)
      requires Valid()
      modifies this
      ensures Valid()
      ensures activeSection == ActiveAfterScroll(old(activeSection), SECTIONS, dom, scrollY + SCROLL_OFFSET)
      ensures isMenuOpen == old(isMenuOpen) && isMobile == old(isMobile)
    {
      var scrollPosition := scrollY + SCROLL_OFFSET;
      var i := 0;
      while i < |SECTIONS|
        invariant 0 <= i <= |SECTIONS|
        invariant activeSection == ActiveAfterScroll(old(activeSection), SECTIONS[..i], dom, scrollPosition)
        invariant activeSection in SECTIONS
        invariant isMenuOpen == old(isMenuOpen) && isMobile == old(isMobile)
      {
        var section := SECTIONS[i];
        LastCoveringExtend(SECTIONS, dom, scrollPosition, i);
        if section in dom {
          var element := dom[section];
          if scrollPosition >= element.offsetTop && scrollPosition < element.offsetTop + element.offsetHeight {
            activeSection := section;
          }
        }
        i := i + 1;
      }
      assert SECTIONS[..i] == SECTIONS;
    }
  }

  // ---------------------------------------------------------------------------
  // Contact form

  /** What the form shows when the server action itself throws. */
  const SUBMIT_ERROR_MESSAGE: string := "An error occurred. Please try again."

  /** The word the status box looks for. */
  const SUCCESS_WORD: string := "successfully"

  predicate OccursAt(s: string, p: string, i: int) {
    0 <= i <= |s| - |p| && s[i..i + |p|] == p
  }

  /** String.prototype.includes */
  predicate Includes(s: string, p: string) {
    exists i | 0 <= i <= |s| :: OccursAt(s, p, i)
  }

  datatype Tone = Green | Red

  /** The status box: hidden while the message is empty, otherwise green or red. */
  function StatusBox(submitMessage: string): Option<Tone> {
    if submitMessage == "" then None
    else if Includes(submitMessage, SUCCESS_WORD) then Some(Green)
    else Some(Red)
  }

  /** p occurs at i when each of its characters is found in place. */
  lemma OccursAtFrom(s: string, p: string, i: nat)
    requires i + |p| <= |s| && forall k | 0 <= k < |p| :: s[i + k] == p[k]
    ensures OccursAt(s, p, i)
  {
    assert s[i..i + |p|] == p;
  }

  /** A text that lacks one of p's characters does not include p. */
  lemma MissingCharacter(s: string, p: string, c: char)
    requires c in p && c !in s
    ensures !Includes(s, p)
  {
    var j :| 0 <= j < |p| && p[j] == c;
    forall i | 0 <= i <= |s| ensures !OccursAt(s, p, i) {
      if 0 <= i <= |s| - |p| {
        assert s[i..i + |p|][j] == s[i + j];
      }
    }
  }

  /** A message without one of the letters of "successfully" is shown in red. */
  lemma RedWithout(s: string, c: char)
    requires s != "" && c in SUCCESS_WORD && c !in s
    ensures StatusBox(s) == Some(Red)
  {
    MissingCharacter(s, SUCCESS_WORD, c);
  }

  /** The success message contains "successfully". */
  lemma SuccessIsGreen()
    ensures StatusBox(ContactAction.SENT_MESSAGE) == Some(Green)
  {
    var sent := ContactAction.SENT_MESSAGE;
    forall k | 0 <= k < |SUCCESS_WORD| ensures sent[13 + k] == SUCCESS_WORD[k] {
    }
    OccursAtFrom(sent, SUCCESS_WORD, 13);
  }

  /** The other texts the form can show each lack one of the letters of "successfully". */
  lemma MissingFieldsIsRed()
    ensures StatusBox(ContactAction.MISSING_FIELDS_MESSAGE) == Some(Red)
  {
    RedWithout(ContactAction.MISSING_FIELDS_MESSAGE, 'y');
  }

  lemma InvalidEmailIsRed()
    ensures StatusBox(ContactAction.INVALID_EMAIL_MESSAGE) == Some(Red)
  {
    RedWithout(ContactAction.INVALID_EMAIL_MESSAGE, 'f');
  }

  lemma SendFailedIsRed()
    ensures StatusBox(ContactAction.SEND_FAILED_MESSAGE) == Some(Red)
  {
    RedWithout(ContactAction.SEND_FAILED_MESSAGE, 'u');
  }

  lemma SubmitErrorIsRed()
    ensures StatusBox(SUBMIT_ERROR_MESSAGE) == Some(Red)
  {
    RedWithout(SUBMIT_ERROR_MESSAGE, 'f');
  }

  /** Whatever sendEmail answers, the box is shown, and it is green exactly when the call succeeded. */
  lemma StatusMatchesOutcome(name: Option<JsString>, email: Option<JsString>, message: Option<JsString>)
    ensures var r := ContactAction.SendEmail(name, email, message);
      StatusBox(r.message) == Some(if r.success then Green else Red)
  {
    SuccessIsGreen();
    MissingFieldsIsRed();
    InvalidEmailIsRed();
    SendFailedIsRed();
  }

  /**
   * The form hands sendEmail each field through FormData.append, which
   * converts its value to a USVString: a lone surrogate arrives as U+FFFD.
   * So the call succeeds exactly when the three typed fields are non-empty
   * and the typed e-mail matches the pattern, and the send-failed answer
   * never comes back to this form.
   */
  lemma SubmittedFormOutcome(name: JsString, email: JsString, message: JsString)
    ensures var r := ContactAction.SendEmail(Some(ToWellFormed(name)), Some(ToWellFormed(email)), Some(ToWellFormed(message)));
      && (r.success <==> name != [] && email != [] && message != [] && ContactAction.MatchesEmailPattern(email))
      && r.message != ContactAction.SEND_FAILED_MESSAGE
  {
    ContactAction.SendEmailSucceedsIff(Some(ToWellFormed(name)), Some(ToWellFormed(email)), Some(ToWellFormed(message)));
    ContactAction.PatternIgnoresConversion(email);
    assert ContactAction.MISSING_FIELDS_MESSAGE[0] != ContactAction.SEND_FAILED_MESSAGE[0];
    assert ContactAction.INVALID_EMAIL_MESSAGE[0] != ContactAction.SEND_FAILED_MESSAGE[0];
  }

  /** The contact form's fields and status. */
  class ContactForm {
    var name: JsString
    var email: JsString
    var message: JsString
    var isSubmitting: bool
    var submitMessage: string

    constructor()
      ensures name == [] && email == [] && message == []
      ensures !isSubmitting && submitMessage == "" && StatusBox(submitMessage).None?
    {
      name, email, message := [], [], [];
      isSubmitting := false;
      submitMessage := "";
    }

    /** handleSubmit up to the await: busy, status cleared, fields as typed. */
    method StartSubmit()
      modifies this
      ensures isSubmitting && submitMessage == "" && StatusBox(submitMessage).None?
      ensures name == old(name) && email == old(email) && message == old(message)
    {
      isSubmitting := true;
      submitMessage := "";
    }

    /**
     * handleSubmit after the await: `outcome` is what sendEmail answered,
     * or None if the call threw. On success the fields are cleared and the
     * link, if any, is launched (it is returned here); otherwise the fields
     * are kept. The finally block always clears the busy flag.
     */
    method FinishSubmit(outcome: Option<ContactAction.SendEmailResult>) returns (launched: Option<JsString>)
      modifies this
      ensures !isSubmitting
      ensures submitMessage == if outcome.Some? then outcome.value.message else SUBMIT_ERROR_MESSAGE
      ensures outcome.Some? && outcome.value.success ==> name == [] && email == [] && message == []
      ensures !(outcome.Some? && outcome.value.success) ==>
                name == old(name) && email == old(email) && message == old(message)
      ensures launched == if outcome.Some? && outcome.value.success then outcome.value.mailtoLink else None
    {
      launched := None;
      if outcome.Some? {
        var result := outcome.value;
        if result.success {
          submitMessage := result.message;
          name, email, message := [], [], [];
          if result.mailtoLink.Some? {
            launched := result.mailtoLink;
          }
        } else {
          submitMessage := result.message;
        }
      } else {
        submitMessage := SUBMIT_ERROR_MESSAGE;
      }
      isSubmitting := false;
    }

    /**
     * The whole submit: the three fields as typed go into a FormData, which
     * turns each into a USVString, and the server action runs on those;
     * `transportFails` stands for the call throwing instead of answering.
     * Afterwards the form is not busy and the box is shown. It is green
     * exactly when the call did not throw, the fields were all non-empty and
     * the e-mail matched the pattern, and exactly then the fields are
     * cleared and the mailto link is launched.
     */
    method HandleSubmit(transportFails: bool) returns (launched: Option<JsString>)
      modifies this
      ensures var r := ContactAction.SendEmail(Some(ToWellFormed(old(name))), Some(ToWellFormed(old(email))),
                                               Some(ToWellFormed(old(message))));
        var sent := && !transportFails && old(name) != [] && old(email) != [] && old(message) != []
                    && ContactAction.MatchesEmailPattern(old(email));
        && !isSubmitting
        && submitMessage == (if transportFails then SUBMIT_ERROR_MESSAGE else r.message)
        && submitMessage != ContactAction.SEND_FAILED_MESSAGE
        && StatusBox(submitMessage) == Some(if sent then Green else Red)
        && (sent ==> name == [] && email == [] && message == [] && launched == r.mailtoLink && launched.Some?)
        && (!sent ==> name == old(name) && email == old(email) && message == old(message) && launched == None)
    {
      var submitted := (ToWellFormed(name), ToWellFormed(email), ToWellFormed(message));
      StartSubmit();
      var outcome := if transportFails then None
                     else Some(ContactAction.SendEmail(Some(submitted.0), Some(submitted.1), Some(submitted.2)));
      SubmittedFormOutcome(old(name), old(email), old(message));
      StatusMatchesOutcome(Some(submitted.0), Some(submitted.1), Some(submitted.2));
      SubmitErrorIsRed();
      assert SUBMIT_ERROR_MESSAGE[0] != ContactAction.SEND_FAILED_MESSAGE[0];
      launched := FinishSubmit(outcome);
    }
  }
}

=== FILE: scene3d.dfy ===
/**
 * The gating state machine of the `Scene3D` component: four flags
 * (isMobile, shouldRender3D, isLoading, hasError) driven by the device
 * check, a 5000 ms timeout, and the canvas's onCreated and onError
 * callbacks, and the rule that picks the fallback, the loading overlay or
 * the canvas from them.
 *
 * The component's effect lists isLoading as its only dependency: every time
 * isLoading changes, React runs the cleanup (clearing the pending timeout)
 * and then the effect again (a fresh device check and a fresh timeout whose
 * callback sees the isLoading of the render that armed it). Each event
 * method below ends with that re-run when it changed isLoading.
 */
module Scene {
  import opened Options

  /** The width below which a window counts as mobile. */
  const MOBILE_BREAKPOINT: int := 768

  /** How long the scene may load before the fallback is shown, in milliseconds. */
  const LOAD_TIMEOUT_MS: int := 5000

  predicate IsMobileWidth(width: int) {
    width < MOBILE_BREAKPOINT
  }

  /**
   * What checkDevice reads from the browser: window.innerWidth,
   * navigator.hardwareConcurrency and navigator.deviceMemory (the last two
   * may be missing; deviceMemory takes fractional values such as 0.25).
   */
  datatype Device = Device(innerWidth: int, hardwareConcurrency: Option<nat>, deviceMemory: Option<real>)

  /** `x && x < 4` for a number read from the navigator: a missing value or 0 is falsy. */
  predicate TruthyBelowFour(x: Option<real>) {
    x.Some? && x.value != 0.0 && x.value < 4.0
  }

  function CoresAsReal(cores: Option<nat>): Option<real> {
    match cores
    case None => None
    case Some(n) => Some(n as real)
  }

  /** isLowEndDevice || hasLimitedMemory */
  predicate ShouldGate(d: Device) {
    TruthyBelowFour(CoresAsReal(d.hardwareConcurrency)) || TruthyBelowFour(d.deviceMemory)
  }

  /** A reading that is missing, 0, or at least 4 never turns the 3D scene off. */
  lemma GateNeedsALowReading(d: Device)
    requires d.hardwareConcurrency.None? || d.hardwareConcurrency.value == 0 || d.hardwareConcurrency.value >= 4
    requires d.deviceMemory.None? || d.deviceMemory.value == 0.0 || d.deviceMemory.value >= 4.0
    ensures !ShouldGate(d)
  {
  }

  /** One, two or three cores, or a positive memory reading below 4, always does. */
  lemma LowReadingGates(d: Device)
    requires (d.hardwareConcurrency.Some? && 1 <= d.hardwareConcurrency.value <= 3)
             || (d.deviceMemory.Some? && 0.0 < d.deviceMemory.value < 4.0)
    ensures ShouldGate(d)
  {
  }

  datatype PowerPreference = LowPower | HighPerformance

  /** The props of the Canvas element that depend on nothing but the layout. */
  datatype CanvasConfig = CanvasConfig(
    cameraZ: int,
    fov: int,
    dprMin: real,
    dprMax: real,
    antialias: bool,
    alpha: bool,
    powerPreference: PowerPreference,
    performanceMin: real,
    performanceMax: real)

  /** The canvas props for a layout; the pixel-ratio and performance ranges are never empty. */
  function CanvasConfigFor(isMobile: bool): (c: CanvasConfig)
    ensures 0.0 < c.dprMin <= c.dprMax && 0.0 < c.performanceMin <= c.performanceMax
  {
    CanvasConfig(
      if isMobile then 8 else 5,
      if isMobile then 50 else 75,
      0.5,
      if isMobile then 1.0 else 2.0,
      !isMobile,
      true,
      if isMobile then LowPower else HighPerformance,
      0.2,
      1.0)
  }

  /**
   * The mobile canvas is the lighter one: the camera sits further back with
   * a narrower field of view, the pixel ratio is capped lower, antialiasing
   * is off and the GPU is asked for low power; the settings that do not
   * depend on the layout are the same.
   */
  lemma MobileCanvasIsLighter()
    ensures var m, d := CanvasConfigFor(true), CanvasConfigFor(false);
      && m.cameraZ == 8 && d.cameraZ == 5 && m.fov == 50 && d.fov == 75
      && m.dprMax == 1.0 && d.dprMax == 2.0
      && m.cameraZ > d.cameraZ && m.fov < d.fov
      && m.dprMin <= m.dprMax < d.dprMax
      && !m.antialias && d.antialias
      && m.powerPreference == LowPower && d.powerPreference == HighPerformance
      && m.dprMin == d.dprMin && m.alpha && d.alpha
      && m.performanceMin == d.performanceMin && m.performanceMax == d.performanceMax
  {
  }

  /** What the component renders. */
  datatype View = Fallback | Canvas(loadingOverlay: bool, config: CanvasConfig)

  /**
   * The fallback exactly when the scene is off or has failed; otherwise the
   * canvas for the layout, under the overlay exactly while loading.
   */
  function Render(shouldRender3D: bool, hasError: bool, isLoading: bool, isMobile: bool): (v: View)
    ensures v.Fallback? <==> !shouldRender3D || hasError
    ensures v.Canvas? ==> (v.loadingOverlay <==> isLoading) && v.config == CanvasConfigFor(isMobile)
  {
    if !shouldRender3D || hasError then Fallback
    else Canvas(isLoading, CanvasConfigFor(isMobile))
  }

  /** A pending setTimeout: when it is due, and the isLoading its callback closed over. */
  datatype Timer = Timer(deadline: int, armedWhileLoading: bool)

  class Scene3D {
    var isMobile: bool
    var shouldRender3D: bool
    var isLoading: bool
    var hasError: bool
    /** What the browser would report if asked now. */
    var device: Device
    /** The timeout the last effect run armed, until it fires or is cleared. */
    var timer: Option<Timer>

    /**
     * What holds between events: the flags agree with the last device
     * check, nothing is loading once the scene is turned off or has failed,
     * and while loading a timeout is pending whose callback saw the current
     * isLoading.
     */
    predicate Valid()
      reads this
    {
      && isMobile == IsMobileWidth(device.innerWidth)
      && (ShouldGate(device) ==> !shouldRender3D)
      && (!shouldRender3D ==> !isLoading)
      && (hasError ==> !isLoading)
      && (isLoading ==> timer.Some?)
      && (timer.Some? ==> timer.value.armedWhileLoading == isLoading)
    }

    function View(): View
      reads this
    {
      Render(shouldRender3D, hasError, isLoading, isMobile)
    }

    /**
     * Between events the overlay is up exactly while loading, and then a
     * timeout is pending that will act; the fallback never sits over a
     * load in progress.
     */
    lemma OverlayMeansPendingTimeout()
      requires Valid()
      ensures (View().Canvas? && View().loadingOverlay) <==> isLoading
      ensures isLoading ==> timer.Some? && timer.value.armedWhileLoading
      ensures View().Fallback? ==> !isLoading
    {
    }

    /** The flags only move one way: shouldRender3D and isLoading from true to false, hasError from false to true. */
    twostate predicate OneWay()
      reads this
    {
      && (shouldRender3D ==> old(shouldRender3D))
      && (isLoading ==> old(isLoading))
      && (old(hasError) ==> hasError)
    }

    /** First render (isMobile false, shouldRender3D true, isLoading true, hasError false), then the effect. */
    constructor Mount(d: Device, now: int)
      ensures Valid()
      ensures device == d
      ensures isMobile == IsMobileWidth(d.innerWidth)
      ensures shouldRender3D == !ShouldGate(d) && isLoading == !ShouldGate(d) && !hasError
      ensures timer == Some(Timer(now + LOAD_TIMEOUT_MS, isLoading))
      ensures View() == if ShouldGate(d) then Fallback else Canvas(true, CanvasConfigFor(IsMobileWidth(d.innerWidth)))
    {
      isMobile := false;
      shouldRender3D := true;
      isLoading := true;
      hasError := false;
      device := d;
      timer := None;
      new;
      RunEffect(now);
    }

    /** checkDevice */
    method CheckDevice()
      modifies this
      ensures isMobile == IsMobileWidth(device.innerWidth)
      ensures shouldRender3D == (old(shouldRender3D) && !ShouldGate(device))
      ensures isLoading == (old(isLoading) && !ShouldGate(device))
      ensures hasError == old(hasError) && device == old(device) && timer == old(timer)
    {
      isMobile := IsMobileWidth(device.innerWidth);
      if ShouldGate(device) {
        shouldRender3D := false;
        isLoading := false;
      }
    }

    /**
     * The effect body: a device check, then a timeout whose callback keeps
     * the isLoading of the render that ran the effect. If the check changed
     * isLoading, React cleans up (clears that timeout) and runs the effect
     * again; isLoading only goes from true to false, so this happens once
     * at most.
     */
    method RunEffect(now: int)
      modifies this
      decreases isLoading
      ensures isMobile == IsMobileWidth(device.innerWidth)
      ensures shouldRender3D == (old(shouldRender3D) && !ShouldGate(device))
      ensures isLoading == (old(isLoading) && !ShouldGate(device))
      ensures hasError == old(hasError) && device == old(device)
      ensures timer == Some(Timer(now + LOAD_TIMEOUT_MS, isLoading))
    {
      var rendered := isLoading;
      CheckDevice();
      timer := Some(Timer(now + LOAD_TIMEOUT_MS, rendered));
      if isLoading != rendered {
        timer := None;
        RunEffect(now);
      }
    }

    /**
     * The resize listener: a device check with the new width. The navigator
     * readings have not changed since the mount, which already acted on
     * them, so the check only moves isMobile and the effect does not re-run.
     */
    method Resize(width: int)
      requires Valid()
      modifies this
      ensures Valid()
      ensures device == old(device).(innerWidth := width)
      ensures isMobile == IsMobileWidth(width)
      ensures shouldRender3D == old(shouldRender3D) && isLoading == old(isLoading) && hasError == old(hasError)
      ensures timer == old(timer)
      ensures OneWay()
    {
      device := device.(innerWidth := width);
      CheckDevice();
    }

    /**
     * The timeout callback, once it is due. It acts only if the render that
     * armed it was still loading; it then shows the fallback, and the re-run
     * of the effect arms a timeout that will do nothing.
     */
    method TimeoutFires(now: int)
      requires Valid() && timer.Some? && now >= timer.value.deadline
      modifies this
      ensures Valid()
      ensures hasError == (old(hasError) || old(isLoading)) && !isLoading
      ensures shouldRender3D == old(shouldRender3D) && isMobile == old(isMobile) && device == old(device)
      ensures timer == if old(isLoading) then Some(Timer(now + LOAD_TIMEOUT_MS, false)) else None
      ensures old(isLoading) ==> View() == Fallback
      ensures !old(isLoading) ==> View() == old(View())
      ensures OneWay()
    {
      var before := isLoading;
      var armedWhileLoading := timer.value.armedWhileLoading;
      timer := None;
      if armedWhileLoading {
        hasError := true;
        isLoading := false;
      }
      if isLoading != before {
        RunEffect(now);
      }
    }

    /** onCreated: the canvas is up, so the overlay goes; an error stays as it was. */
    method CanvasCreated(now: int)
      requires Valid() && View().Canvas?
      modifies this
      ensures Valid()
      ensures !isLoading && hasError == old(hasError)
      ensures shouldRender3D == old(shouldRender3D) && isMobile == old(isMobile) && device == old(device)
      ensures timer == if old(isLoading) then Some(Timer(now + LOAD_TIMEOUT_MS, false)) else old(timer)
      ensures View() == Canvas(false, CanvasConfigFor(isMobile))
      ensures OneWay()
    {
      var before := isLoading;
      isLoading := false;
      if before {
        RunEffect(now);
      }
    }

    /** onError: the fallback replaces the canvas for good. */
    method CanvasError(now: int)
      requires Valid() && View().Canvas?
      modifies this
      ensures Valid()
      ensures hasError && !isLoading
      ensures shouldRender3D == old(shouldRender3D) && isMobile == old(isMobile) && device == old(device)
      ensures timer == if old(isLoading) then Some(Timer(now + LOAD_TIMEOUT_MS, false)) else old(timer)
      ensures View() == Fallback
      ensures OneWay()
    {
      var before := isLoading;
      hasError := true;
      isLoading := false;
      if before {
        RunEffect(now);
      }
    }
  }
}

=== FILE: uri_component.dfy ===
/**
 * encodeURIComponent and decodeURIComponent (section 19.2.6 of ECMA-262):
 * percent-encoding of the UTF-8 form of a string, and the inverse that reads
 * it back.
 */
module UriComponent {
  import opened Options
  import opened Utf16

  /** The URIError both functions throw. */
  datatype UriError = UriError

  type Byte = b: int | 0 <= b < 0x100

  const PERCENT: CodeUnit := '%' as int

  /** ASCII word characters and "-.!~*'()": the code units encodeURIComponent copies as they are. */
  predicate IsUnreserved(u: CodeUnit) {
    || ('A' as int <= u <= 'Z' as int)
    || ('a' as int <= u <= 'z' as int)
    || ('0' as int <= u <= '9' as int)
    || u == '_' as int || u == '-' as int || u == '.' as int || u == '!' as int
    || u == '~' as int || u == '*' as int || u == '\'' as int || u == '(' as int || u == ')' as int
  }

  predicate IsUpperHexDigit(u: CodeUnit) {
    ('0' as int <= u <= '9' as int) || ('A' as int <= u <= 'F' as int)
  }

  /** The upper-case hexadecimal digit written for a nibble. */
  function HexDigit(v: int): (u: CodeUnit)
    requires 0 <= v < 16
    ensures IsUpperHexDigit(u)
  {
    if v < 10 then '0' as int + v else 'A' as int + (v - 10)
  }

  /** The value of a hexadecimal digit of either case, as decoding reads it. */
  function HexValue(u: CodeUnit): (r: Option<int>)
    ensures r.Some? ==> 0 <= r.value < 16
  {
    if '0' as int <= u <= '9' as int then Some(u - '0' as int)
    else if 'A' as int <= u <= 'F' as int then Some(u - 'A' as int + 10)
    else if 'a' as int <= u <= 'f' as int then Some(u - 'a' as int + 10)
    else None
  }

  /** "%XY": one octet written as an escape. */
  function Escape(b: Byte): JsString {
    [PERCENT, HexDigit(b / 16), HexDigit(b % 16)]
  }

  function EscapeAll(bs: seq<Byte>): (r: JsString)
    ensures |r| == 3 * |bs|
  {
    if bs == [] then [] else Escape(bs[0]) + EscapeAll(bs[1..])
  }

  /** The UTF-8 octets of a scalar value (Table 3-6 of the Unicode Standard). */
  function Utf8Encode(cp: int): (r: seq<Byte>)
    requires IsScalarValue(cp)
    ensures |r| == if cp < 0x80 then 1 else if cp < 0x800 then 2 else if cp < 0x1_0000 then 3 else 4
  {
    if cp < 0x80 then [cp]
    else if cp < 0x800 then [0xC0 + cp / 0x40, 0x80 + cp % 0x40]
    else if cp < 0x1_0000 then [0xE0 + cp / 0x1000, 0x80 + cp / 0x40 % 0x40, 0x80 + cp % 0x40]
    else [0xF0 + cp / 0x4_0000, 0x80 + cp / 0x1000 % 0x40, 0x80 + cp / 0x40 % 0x40, 0x80 + cp % 0x40]
  }

  /** The number of leading 1 bits of an octet. */
  function LeadingOnes(b: Byte): nat {
    if b < 0x80 then 0
    else if b < 0xC0 then 1
    else if b < 0xE0 then 2
    else if b < 0xF0 then 3
    else if b < 0xF8 then 4
    else if b < 0xFC then 5
    else if b < 0xFE then 6
    else if b < 0xFF then 7
    else 8
  }

  predicate IsContinuation(b: Byte) { 0x80 <= b < 0xC0 }

  /**
   * The code point whose UTF-8 encoding the octets are, when they are a valid
   * encoding (Table 3-7 of the Unicode Standard: no overlong form, no
   * surrogate, nothing above U+10FFFF). Only the canonical encoding is
   * accepted.
   */
  function Utf8Decode(bs: seq<Byte>): (r: Option<int>)
    ensures r.Some? ==> IsScalarValue(r.value)
  {
    if |bs| == 1 && bs[0] < 0x80 then Some(bs[0])
    else if |bs| == 2 && LeadingOnes(bs[0]) == 2 && IsContinuation(bs[1]) then
      var cp: int := (bs[0] as int - 0xC0) * 0x40 + (bs[1] as int - 0x80);
      if 0x80 <= cp then Some(cp) else None
    else if |bs| == 3 && LeadingOnes(bs[0]) == 3 && IsContinuation(bs[1]) && IsContinuation(bs[2]) then
      var cp: int := (bs[0] as int - 0xE0) * 0x1000 + (bs[1] as int - 0x80) * 0x40 + (bs[2] as int - 0x80);
      if 0x800 <= cp && !(0xD800 <= cp < 0xE000) then Some(cp) else None
    else if && |bs| == 4 && LeadingOnes(bs[0]) == 4
            && IsContinuation(bs[1]) && IsContinuation(bs[2]) && IsContinuation(bs[3]) then
      var cp: int := (bs[0] as int - 0xF0) * 0x4_0000 + (bs[1] as int - 0x80) * 0x1000
                     + (bs[2] as int - 0x80) * 0x40 + (bs[3] as int - 0x80);
      if 0x1_0000 <= cp < 0x11_0000 then Some(cp) else None
    else None
  }

  function Prepend(prefix: JsString, r: Result<JsString, UriError>): Result<JsString, UriError> {
    match r
    case Ok(rest) => Ok(prefix + rest)
    case Err(e) => Err(e)
  }

  /**
   * encodeURIComponent(s), that is Encode(s, "") of ECMA-262: unreserved code
   * units are copied, every other code point is written as the escapes of its
   * UTF-8 octets, and an unpaired surrogate throws a URIError.
   */
  function EncodeUriComponent(s: JsString): Result<JsString, UriError>
    decreases |s|
  {
    if s == [] then Ok([])
    else if IsUnreserved(s[0]) then Prepend([s[0]], EncodeUriComponent(s[1..]))
    else
      var cp := CodePointAt(s, 0);
      if cp.isUnpairedSurrogate then Err(UriError)
      else Prepend(EscapeAll(Utf8Encode(cp.codePoint)), EncodeUriComponent(s[cp.codeUnitCount..]))
  }

  /** One "%XY" escape at the head of t, with hexadecimal digits of either case. */
  function ReadEscape(t: JsString): (r: Option<Byte>)
    ensures r.Some? ==> |t| >= 3
  {
    if |t| >= 3 && t[0] == PERCENT then
      match (HexValue(t[1]), HexValue(t[2]))
      case (Some(hi), Some(lo)) => Some(hi * 16 + lo)
      case _ => None
    else None
  }

  /** k escapes in a row at the head of t. */
  function ReadEscapes(t: JsString, k: nat): (r: Option<seq<Byte>>)
    ensures r.Some? ==> |r.value| == k && 3 * k <= |t|
  {
    if k == 0 then Some([])
    else
      match ReadEscape(t)
      case None => None
      case Some(b) =>
        match ReadEscapes(t[3..], k - 1)
        case None => None
        case Some(bs) => Some([b] + bs)
  }

  /**
   * decodeURIComponent(t), that is Decode(t, "") of ECMA-262: every escape is
   * replaced by the code units of the code point its octets encode; a
   * malformed escape or an invalid UTF-8 sequence throws a URIError.
   */
  function DecodeUriComponent(t: JsString): Result<JsString, UriError>
    decreases |t|
  {
    if t == [] then Ok([])
    else if t[0] != PERCENT then Prepend([t[0]], DecodeUriComponent(t[1..]))
    else
      match ReadEscape(t)
      case None => Err(UriError)
      case Some(b) =>
        if b < 0x80 then Prepend([b], DecodeUriComponent(t[3..]))
        else
          var n := LeadingOnes(b);
          if n == 1 || n > 4 then Err(UriError)
          else
            match ReadEscapes(t[3..], n - 1)
            case None => Err(UriError)
            case Some(more) =>
              match Utf8Decode([b] + more)
              case None => Err(UriError)
              case Some(cp) => Prepend(EncodeCodePoint(cp), DecodeUriComponent(t[3 * n..]))
  }

  /**
   * The shape of encodeURIComponent's output: unreserved code units and
   * "%XY" escapes with upper-case digits, nothing else.
   */
  predicate IsPercentEncoded(t: JsString)
    decreases |t|
  {
    if t == [] then true
    else if IsUnreserved(t[0]) then IsPercentEncoded(t[1..])
    else && |t| >= 3 && t[0] == PERCENT && IsUpperHexDigit(t[1]) && IsUpperHexDigit(t[2])
         && IsPercentEncoded(t[3..])
  }

  // ---------------------------------------------------------------------------
  // Octets and escapes

  lemma HexDigitValue(v: int)
    requires 0 <= v < 16
    ensures HexValue(HexDigit(v)) == Some(v)
  {
  }

  lemma ReadEscapeOf(b: Byte, rest: JsString)
    ensures ReadEscape(Escape(b) + rest) == Some(b)
  {
    var t := Escape(b) + rest;
    assert t[0] == PERCENT && t[1] == HexDigit(b / 16) && t[2] == HexDigit(b % 16);
    HexDigitValue(b / 16);
    HexDigitValue(b % 16);
  }

  lemma {:induction false} ReadEscapesOf(bs: seq<Byte>, rest: JsString)
    ensures ReadEscapes(EscapeAll(bs) + rest, |bs|) == Some(bs)
  {
    if bs != [] {
      var t := EscapeAll(bs) + rest;
      assert t == Escape(bs[0]) + (EscapeAll(bs[1..]) + rest);
      ReadEscapeOf(bs[0], EscapeAll(bs[1..]) + rest);
      assert t[3..] == EscapeAll(bs[1..]) + rest;
      ReadEscapesOf(bs[1..], rest);
      assert [bs[0]] + bs[1..] == bs;
    }
  }

  lemma {:induction false} EscapeAllIsPercentEncoded(bs: seq<Byte>, rest: JsString)
    requires IsPercentEncoded(rest)
    ensures IsPercentEncoded(EscapeAll(bs) + rest)
  {
    if bs != [] {
      var t := EscapeAll(bs) + rest;
      assert t == Escape(bs[0]) + (EscapeAll(bs[1..]) + rest);
      assert t[0] == PERCENT && t[1] == HexDigit(bs[0] / 16) && t[2] == HexDigit(bs[0] % 16);
      assert !IsUnreserved(t[0]);
      assert t[3..] == EscapeAll(bs[1..]) + rest;
      EscapeAllIsPercentEncoded(bs[1..], rest);
    } else {
      assert EscapeAll(bs) + rest == rest;
    }
  }

  /** Decoding accepts the UTF-8 encoding of every scalar value. */
  lemma Utf8RoundTrip(cp: int)
    requires IsScalarValue(cp)
    ensures Utf8Decode(Utf8Encode(cp)) == Some(cp)
    ensures LeadingOnes(Utf8Encode(cp)[0]) == if cp < 0x80 then 0 else |Utf8Encode(cp)|
  {
    if cp < 0x80 {
    } else if cp < 0x800 {
      Utf8RoundTrip2(cp);
    } else if cp < 0x1_0000 {
      Utf8RoundTrip3(cp);
    } else {
      Utf8RoundTrip4(cp);
    }
  }

  lemma Utf8RoundTrip2(cp: int)
    requires 0x80 <= cp < 0x800
    ensures Utf8Decode(Utf8Encode(cp)) == Some(cp) && LeadingOnes(Utf8Encode(cp)[0]) == 2
  {
    var bs := Utf8Encode(cp);
    var q, r := cp / 0x40, cp % 0x40;
    assert bs == [0xC0 + q, 0x80 + r];
    assert (bs[0] as int - 0xC0) * 0x40 + (bs[1] as int - 0x80) == cp;
  }

  lemma Utf8RoundTrip3(cp: int)
    requires IsScalarValue(cp) && 0x800 <= cp < 0x1_0000
    ensures Utf8Decode(Utf8Encode(cp)) == Some(cp) && LeadingOnes(Utf8Encode(cp)[0]) == 3
  {
    var bs := Utf8Encode(cp);
    var q, r := cp / 0x40, cp % 0x40;
    var q1, r1 := q / 0x40, q % 0x40;
    assert q == 0x40 * q1 + r1;
    assert cp == 0x1000 * q1 + 0x40 * r1 + r;
    assert cp / 0x1000 == q1;
    assert bs == [0xE0 + q1, 0x80 + r1, 0x80 + r];
    assert (bs[0] as int - 0xE0) * 0x1000 + (bs[1] as int - 0x80) * 0x40 + (bs[2] as int - 0x80) == cp;
  }

  lemma Utf8RoundTrip4(cp: int)
    requires IsScalarValue(cp) && 0x1_0000 <= cp
    ensures Utf8Decode(Utf8Encode(cp)) == Some(cp) && LeadingOnes(Utf8Encode(cp)[0]) == 4
  {
    var bs := Utf8Encode(cp);
    var q, r := cp / 0x40, cp % 0x40;
    var q1, r1 := q / 0x40, q % 0x40;
    var q2, r2 := q1 / 0x40, q1 % 0x40;
    assert q == 0x40 * q1 + r1 && q1 == 0x40 * q2 + r2;
    assert cp == 0x4_0000 * q2 + 0x1000 * r2 + 0x40 * r1 + r;
    assert cp / 0x1000 == q1 && cp / 0x4_0000 == q2;
    assert bs == [0xF0 + q2, 0x80 + r2, 0x80 + r1, 0x80 + r];
    assert (bs[0] as int - 0xF0) * 0x4_0000 + (bs[1] as int - 0x80) * 0x1000
           + (bs[2] as int - 0x80) * 0x40 + (bs[3] as int - 0x80) == cp;
  }

  /** Decoding the escapes of one code point gives back its code units. */
  lemma DecodeEscapedCodePoint(cp: int, rest: JsString)
    requires IsScalarValue(cp)
    ensures DecodeUriComponent(EscapeAll(Utf8Encode(cp)) + rest)
            == Prepend(EncodeCodePoint(cp), DecodeUriComponent(rest))
  {
    Utf8RoundTrip(cp);
    if cp < 0x80 {
      DecodeEscapedAscii(cp, rest);
    } else {
      DecodeEscapedMultiByte(cp, rest);
    }
  }

  lemma DecodeEscapedAscii(cp: int, rest: JsString)
    requires 0 <= cp < 0x80
    ensures DecodeUriComponent(EscapeAll(Utf8Encode(cp)) + rest) == Prepend([cp], DecodeUriComponent(rest))
  {
    var t := EscapeAll([cp]) + rest;
    assert Utf8Encode(cp) == [cp];
    assert t == Escape(cp) + (EscapeAll([]) + rest);
    ReadEscapeOf(cp, rest);
    assert t[0] == PERCENT && t[3..] == rest;
  }

  lemma DecodeEscapedMultiByte(cp: int, rest: JsString)
    requires IsScalarValue(cp) && cp >= 0x80
    ensures DecodeUriComponent(EscapeAll(Utf8Encode(cp)) + rest)
            == Prepend(EncodeCodePoint(cp), DecodeUriComponent(rest))
  {
    var bs := Utf8Encode(cp);
    var t := EscapeAll(bs) + rest;
    assert t == Escape(bs[0]) + (EscapeAll(bs[1..]) + rest);
    ReadEscapeOf(bs[0], EscapeAll(bs[1..]) + rest);
    assert t[0] == PERCENT;
    assert t[3..] == EscapeAll(bs[1..]) + rest;
    Utf8RoundTrip(cp);
    ReadEscapesOf(bs[1..], rest);
    assert [bs[0]] + bs[1..] == bs;
    assert t[3 * |bs|..] == rest;
  }

  // ---------------------------------------------------------------------------
  // Properties of encodeURIComponent

  /** encodeURIComponent throws exactly when the string holds an unpaired surrogate. */
  lemma {:induction false} EncodeFailsIffIllFormed(s: JsString)
    ensures EncodeUriComponent(s).Ok? <==> WellFormed(s)
    decreases |s|
  {
    if s != [] {
      if IsUnreserved(s[0]) {
        EncodeFailsIffIllFormed(s[1..]);
        WellFormedTail(s);
      } else {
        var cp := CodePointAt(s, 0);
        if cp.isUnpairedSurrogate {
          assert !PairedAt(s, 0);
        } else {
          EncodeFailsIffIllFormed(s[cp.codeUnitCount..]);
          WellFormedAfterCodePoint(s, cp.codeUnitCount);
        }
      }
    }
  }

  /** What encodeURIComponent returns is made of unreserved code units and escapes. */
  lemma {:induction false} EncodeIsPercentEncoded(s: JsString)
    requires EncodeUriComponent(s).Ok?
    ensures IsPercentEncoded(EncodeUriComponent(s).value)
    decreases |s|
  {
    if s != [] {
      if IsUnreserved(s[0]) {
        EncodeIsPercentEncoded(s[1..]);
        var t := [s[0]] + EncodeUriComponent(s[1..]).value;
        assert t[1..] == EncodeUriComponent(s[1..]).value;
      } else {
        var cp := CodePointAt(s, 0);
        EncodeIsPercentEncoded(s[cp.codeUnitCount..]);
        EscapeAllIsPercentEncoded(Utf8Encode(cp.codePoint), EncodeUriComponent(s[cp.codeUnitCount..]).value);
      }
    }
  }

  /** decodeURIComponent undoes encodeURIComponent on every well-formed string. */
  lemma {:induction false} DecodeEncode(s: JsString)
    requires WellFormed(s)
    ensures EncodeUriComponent(s).Ok?
    ensures DecodeUriComponent(EncodeUriComponent(s).value) == Ok(s)
    decreases |s|
  {
    EncodeFailsIffIllFormed(s);
    if s != [] {
      if IsUnreserved(s[0]) {
        WellFormedTail(s);
        DecodeEncode(s[1..]);
        DecodeEncodeUnreserved(s);
      } else {
        var n := CodePointAt(s, 0).codeUnitCount;
        WellFormedAfterCodePoint(s, n);
        DecodeEncode(s[n..]);
        DecodeEncodeEscaped(s);
      }
    }
  }

  /** The step of DecodeEncode for a code unit that is copied as it is. */
  lemma DecodeEncodeUnreserved(s: JsString)
    requires s != [] && IsUnreserved(s[0])
    requires EncodeUriComponent(s[1..]).Ok?
    requires DecodeUriComponent(EncodeUriComponent(s[1..]).value) == Ok(s[1..])
    ensures EncodeUriComponent(s).Ok? && DecodeUriComponent(EncodeUriComponent(s).value) == Ok(s)
  {
    var e := EncodeUriComponent(s).value;
    assert e == [s[0]] + EncodeUriComponent(s[1..]).value;
    assert e[0] == s[0] && e[1..] == EncodeUriComponent(s[1..]).value;
    assert [s[0]] + s[1..] == s;
  }

  /** The step of DecodeEncode for a code point that is escaped. */
  lemma DecodeEncodeEscaped(s: JsString)
    requires s != [] && !IsUnreserved(s[0]) && !CodePointAt(s, 0).isUnpairedSurrogate
    requires EncodeUriComponent(s[CodePointAt(s, 0).codeUnitCount..]).Ok?
    requires DecodeUriComponent(EncodeUriComponent(s[CodePointAt(s, 0).codeUnitCount..]).value)
             == Ok(s[CodePointAt(s, 0).codeUnitCount..])
    ensures EncodeUriComponent(s).Ok? && DecodeUriComponent(EncodeUriComponent(s).value) == Ok(s)
  {
    var cp := CodePointAt(s, 0);
    var n := cp.codeUnitCount;
    DecodeEscapedCodePoint(cp.codePoint, EncodeUriComponent(s[n..]).value);
    assert s[0..n] + s[n..] == s;
  }

  /** Every code unit of percent-encoded text is unreserved, '%' or an upper-case hexadecimal digit. */
  lemma {:induction false} PercentEncodedAlphabet(t: JsString)
    requires IsPercentEncoded(t)
    ensures forall i | 0 <= i < |t| :: IsUnreserved(t[i]) || t[i] == PERCENT || IsUpperHexDigit(t[i])
    decreases |t|
  {
    if t != [] {
      if IsUnreserved(t[0]) {
        PercentEncodedAlphabet(t[1..]);
        assert forall i | 1 <= i < |t| :: t[i] == t[1..][i - 1];
      } else {
        PercentEncodedAlphabet(t[3..]);
        assert forall i | 3 <= i < |t| :: t[i] == t[3..][i - 3];
      }
    }
  }

  // ---------------------------------------------------------------------------
  // Well-formedness, one code point at a time

  lemma WellFormedTail(s: JsString)
    requires s != [] && !IsSurrogate(s[0])
    ensures WellFormed(s) <==> WellFormed(s[1..])
  {
    SingleWellFormed(s[0]);
    assert s == [s[0]] + s[1..];
    WellFormedAppend([s[0]], s[1..]);
  }

  lemma WellFormedAfterCodePoint(s: JsString, n: nat)
    requires s != [] && !CodePointAt(s, 0).isUnpairedSurrogate && n == CodePointAt(s, 0).codeUnitCount
    ensures WellFormed(s) <==> WellFormed(s[n..])
  {
    var cp := CodePointAt(s, 0);
    assert s == s[..n] + s[n..];
    assert WellFormed(s[..n]) by {
      assert s[..n] == s[0..n];
    }
    WellFormedAppend(s[..n], s[n..]);
  }
}

=== FILE: utf16.dfy ===
/**
 * ECMAScript strings as sequences of UTF-16 code units (ECMA-262 section 6.1.4),
 * with the code point operations of ECMA-262 section 11.1.
 */
module Utf16 {

  /** One UTF-16 code unit. */
  type CodeUnit = u: int | 0 <= u < 0x1_0000

  /** An ECMAScript String value: any sequence of code units, paired or not. */
  type JsString = seq<CodeUnit>

  predicate IsLeadingSurrogate(u: CodeUnit) { 0xD800 <= u < 0xDC00 }

  predicate IsTrailingSurrogate(u: CodeUnit) { 0xDC00 <= u < 0xE000 }

  predicate IsSurrogate(u: CodeUnit) { 0xD800 <= u < 0xE000 }

  /** A Unicode scalar value: a code point that is not a surrogate. */
  predicate IsScalarValue(cp: int) { 0 <= cp < 0x11_0000 && !(0xD800 <= cp < 0xE000) }

  /**
   * No unpaired surrogate: every leading surrogate is followed by a trailing
   * one and every trailing surrogate is preceded by a leading one.
   */
  predicate WellFormed(s: JsString) {
    forall i | 0 <= i < |s| :: PairedAt(s, i)
  }

  /** The code unit at position i is not half of a broken pair. */
  predicate PairedAt(s: JsString, i: int)
    requires 0 <= i < |s|
  {
    && (IsLeadingSurrogate(s[i]) ==> i + 1 < |s| && IsTrailingSurrogate(s[i + 1]))
    && (IsTrailingSurrogate(s[i]) ==> 0 < i && IsLeadingSurrogate(s[i - 1]))
  }

  /** UTF16EncodeCodePoint (ECMA-262 section 11.1.1). */
  function EncodeCodePoint(cp: int): (r: JsString)
    requires IsScalarValue(cp)
    ensures |r| == (if cp < 0x1_0000 then 1 else 2)
  {
    if cp < 0x1_0000 then [cp]
    else [0xD800 + (cp - 0x1_0000) / 0x400, 0xDC00 + (cp - 0x1_0000) % 0x400]
  }

  /** Encoding a scalar value never produces an unpaired surrogate. */
  lemma EncodeCodePointWellFormed(cp: int)
    requires IsScalarValue(cp)
    ensures WellFormed(EncodeCodePoint(cp))
  {
    if cp < 0x1_0000 {
      SingleWellFormed(cp);
    } else {
      PairWellFormed(0xD800 + (cp - 0x1_0000) / 0x400, 0xDC00 + (cp - 0x1_0000) % 0x400);
    }
  }

  lemma SingleWellFormed(u: CodeUnit)
    requires !IsSurrogate(u)
    ensures WellFormed([u])
  {
    assert PairedAt([u], 0);
  }

  lemma PairWellFormed(lead: CodeUnit, trail: CodeUnit)
    requires IsLeadingSurrogate(lead) && IsTrailingSurrogate(trail)
    ensures WellFormed([lead, trail])
  {
    assert PairedAt([lead, trail], 0) && PairedAt([lead, trail], 1);
  }

  /** UTF16SurrogatePairToCodePoint (ECMA-262 section 11.1.3). */
  function SurrogatePairToCodePoint(lead: CodeUnit, trail: CodeUnit): (cp: int)
    requires IsLeadingSurrogate(lead) && IsTrailingSurrogate(trail)
    ensures IsScalarValue(cp) && 0x1_0000 <= cp
    ensures EncodeCodePoint(cp) == [lead, trail]
  {
    (lead - 0xD800) * 0x400 + (trail - 0xDC00) + 0x1_0000
  }

  /** The record CodePointAt returns. */
  datatype CodePointRecord = CodePointRecord(codePoint: int, codeUnitCount: nat, isUnpairedSurrogate: bool)

  /**
   * CodePointAt (ECMA-262 section 11.1.4): the code point that starts at
   * position k, and how many code units it spans. An unpaired surrogate is
   * reported as such; otherwise re-encoding the code point gives back
   * exactly the code units read.
   */
  function CodePointAt(s: JsString, k: nat): (r: CodePointRecord)
    requires k < |s|
    ensures 1 <= r.codeUnitCount && k + r.codeUnitCount <= |s|
    ensures r.isUnpairedSurrogate <==>
              || IsTrailingSurrogate(s[k])
              || (IsLeadingSurrogate(s[k]) && (k + 1 == |s| || !IsTrailingSurrogate(s[k + 1])))
    ensures !r.isUnpairedSurrogate ==>
              IsScalarValue(r.codePoint) && EncodeCodePoint(r.codePoint) == s[k..k + r.codeUnitCount]
  {
    var first := s[k];
    if !IsSurrogate(first) then CodePointRecord(first, 1, false)
    else if IsTrailingSurrogate(first) || k + 1 == |s| then CodePointRecord(first, 1, true)
    else
      var second := s[k + 1];
      if !IsTrailingSurrogate(second) then CodePointRecord(first, 1, true)
      else CodePointRecord(SurrogatePairToCodePoint(first, second), 2, false)
  }

  /**
   * The code units of a Dafny string (a sequence of Unicode scalar values):
   * how an ECMAScript engine holds a string literal. Each character is
   * encoded on its own and the pieces are joined in order.
   */
  function FromString(s: string): (r: JsString)
  {
    Concat(seq(|s|, i requires 0 <= i < |s| => EncodeCodePoint(s[i] as int)))
  }

  function Concat(parts: seq<JsString>): JsString {
    if parts == [] then [] else parts[0] + Concat(parts[1..])
  }

  /** FromString one character at a time. */
  lemma FromStringCons(s: string)
    ensures FromString(s) == if s == [] then [] else EncodeCodePoint(s[0] as int) + FromString(s[1..])
  {
    var units := seq(|s|, i requires 0 <= i < |s| => EncodeCodePoint(s[i] as int));
    if s != [] {
      assert units[1..] == seq(|s[1..]|, i requires 0 <= i < |s[1..]| => EncodeCodePoint(s[1..][i] as int));
    }
  }

  /** A string that comes from scalar values never holds an unpaired surrogate. */
  lemma {:induction false} FromStringWellFormed(s: string)
    ensures WellFormed(FromString(s))
    ensures |FromString(s)| >= |s|
  {
    FromStringCons(s);
    if s != [] {
      FromStringWellFormed(s[1..]);
      EncodeCodePointWellFormed(s[0] as int);
      WellFormedAppend(EncodeCodePoint(s[0] as int), FromString(s[1..]));
    }
  }

  /** An ASCII character that is not in s is not among the code units of s. */
  lemma {:induction false} FromStringExcludes(s: string, c: char)
    requires c as int < 0x80 && c !in s
    ensures (c as int) !in FromString(s)
  {
    FromStringCons(s);
    if s != [] {
      assert s[0] != c;
      FromStringExcludes(s[1..], c);
    }
  }

  /**
   * Joining two strings pairs no surrogates across the seam unless the left
   * one ends with a leading surrogate and the right one starts with a
   * trailing surrogate; otherwise the join is well formed exactly when both
   * parts are.
   */
  lemma WellFormedAppend(a: JsString, b: JsString)
    requires !(a != [] && b != [] && IsLeadingSurrogate(a[|a| - 1]) && IsTrailingSurrogate(b[0]))
    ensures WellFormed(a + b) <==> WellFormed(a) && WellFormed(b)
  {
    var ab := a + b;
    if WellFormed(ab) {
      forall i | 0 <= i < |a| ensures PairedAt(a, i) {
        assert PairedAt(ab, i);
      }
      forall j | 0 <= j < |b| ensures PairedAt(b, j) {
        assert PairedAt(ab, |a| + j);
      }
    }
    if WellFormed(a) && WellFormed(b) {
      forall i | 0 <= i < |ab| ensures PairedAt(ab, i) {
        if i < |a| {
          assert PairedAt(a, i);
        } else {
          assert PairedAt(b, i - |a|);
        }
      }
    }
  }

  /** A well-formed string neither starts with a trailing surrogate nor ends with a leading one. */
  lemma WellFormedEdges(s: JsString)
    requires WellFormed(s) && s != []
    ensures !IsTrailingSurrogate(s[0]) && !IsLeadingSurrogate(s[|s| - 1])
  {
    assert PairedAt(s, 0) && PairedAt(s, |s| - 1);
  }

  /**
   * A non-empty literal spliced into a string pairs with nothing on either
   * side: the result is well formed exactly when both sides are.
   */
  lemma {:induction false} WellFormedAroundLiteral(x: JsString, lit: string, y: JsString)
    requires lit != []
    ensures WellFormed(x + FromString(lit) + y) <==> WellFormed(x) && WellFormed(y)
  {
    var p := FromString(lit);
    FromStringWellFormed(lit);
    WellFormedEdges(p);
    WellFormedAppend(x, p);
    assert (x + p)[|x + p| - 1] == p[|p| - 1];
    WellFormedAppend(x + p, y);
  }

  /** A non-empty literal in front of a string pairs with nothing in it. */
  lemma {:induction false} WellFormedAfterLiteral(lit: string, y: JsString)
    requires lit != []
    ensures WellFormed(FromString(lit) + y) <==> WellFormed(y)
  {
    var p := FromString(lit);
    FromStringWellFormed(lit);
    WellFormedEdges(p);
    WellFormedAppend(p, y);
  }
  /** U+FFFD REPLACEMENT CHARACTER. */
  const REPLACEMENT_CHARACTER: CodeUnit := 0xFFFD

  /**
   * Conversion to a USVString (Web IDL, the USVString type), which is also
   * String.prototype.toWellFormed (ECMA-262 section 22.1.3.32): a code unit
   * is kept exactly when it is not half of a broken pair, and every
   * unpaired surrogate becomes U+FFFD. The result is well formed, and a
   * string that already is comes back unchanged.
   */
  function ToWellFormed(s: JsString): (r: JsString)
    ensures |r| == |s|
    ensures forall i | 0 <= i < |s| :: (r[i] == s[i]) <==> PairedAt(s, i)
    ensures forall i | 0 <= i < |s| :: !PairedAt(s, i) ==> r[i] == REPLACEMENT_CHARACTER
    ensures WellFormed(r)
    ensures WellFormed(s) ==> r == s
  {
    var r := seq(|s|, i requires 0 <= i < |s| => if PairedAt(s, i) then s[i] else REPLACEMENT_CHARACTER);
    ReplacementWellFormed(s, r);
    r
  }

  /** Replacing the broken halves leaves every remaining surrogate paired. */
  lemma ReplacementWellFormed(s: JsString, r: JsString)
    requires |r| == |s|
    requires forall i | 0 <= i < |s| :: r[i] == if PairedAt(s, i) then s[i] else REPLACEMENT_CHARACTER
    ensures WellFormed(r)
  {
    forall i | 0 <= i < |r| ensures PairedAt(r, i) {
      if IsLeadingSurrogate(r[i]) {
        assert PairedAt(s, i);
        assert PairedAt(s, i + 1);
      }
      if IsTrailingSurrogate(r[i]) {
        assert PairedAt(s, i);
        assert PairedAt(s, i - 1);
      }
    }
  }
}
